=== FILE: README.md ===
# camera-to-keyboard: the per-frame keystroke pipeline

The system types on a paper keyboard by watching it with a camera. Each camera frame yields
a list of detections: boxes of class finger, thumb or marker, each with a confidence. The
frame object (`DetectedFrame`) turns them into key presses in six steps.

1. It filters the detections by class and confidence.
2. It updates two trackers. The marker tracker gives the paper's four corners. The finger
   tracker gives the eight fingers and two thumbs, each as a point with a short history.
3. It classifies the frame as valid, missing fingers or missing thumbs.
4. While a calibration is running, it feeds valid frames to the adjacent-neighbour
   calibration strategy. That strategy learns, for each finger, the resting vertical offset
   to its neighbour.
5. It finds the fingers that are down. A finger is down when it is the lowest tracked
   point, is not moving down fast, and sits further below its neighbour than its baseline
   plus a threshold.
6. It maps each down finger to a key of the keyboard layout. A finger is locked to its key
   while it stays down, and thumbs always type a space.

Two helpers of the application are modelled with it. The first is the repeating-key
throttle. The second is the user interface's task list.

The model follows the code, and the proofs make these consequences of the code explicit.
- The marker tracker's `all_marker_coordinates` always has four entries. So the frame is
  never classified as missing markers (`Frame.Classify`, `Frame.DetectedFrame.Update`). A
  frame without markers is only caught when a down finger's point is projected.
- At most one finger is down in any frame (`DownDetection.AtMostOneDown`). The rule "more
  than four down fingers is noise" therefore never applies.
- Every entry of the calibration history is the same tracker object, so every entry sees
  the tracker's current state. When calibration completes, each baseline is therefore the
  finger's distance to its neighbour in the frame that completed it
  (`Frame.AliasedHistoryBaseline`, `Frame.DetectedFrame.FeedCalibration`).
- `start_calibration` always starts a calibration and stores the callback, even when the
  strategy is already calibrated (`Frame.DetectedFrame.StartCalibration`). The guard is in
  the caller: the user interface's `_start_calibration` (cameratokeyboard/app/ui.py:236-248)
  returns early when there is no frame yet, when a calibration is already in progress, or
  when calibration is not required. That caller is not part of this model.

Floats are modelled as reals. Python's `int()` on a float, which truncates toward zero, is
`Types.Trunc`. The perspective transform and the width correction of the math module are
parameters of the frame (`Projection`, `WidthCorrection`). The clock is a parameter of the
throttle and of the task list. Callables are opaque handles (`nat`).

## Model

| member | source | states |
|---|---|---|
| Types.Finger.Index | cameratokeyboard/types.py:106-120 | every finger has an index below ten |
| Types.Values | cameratokeyboard/types.py:122-131 | the ten fingers, each at the position of its own index |
| Types.ByIndex | cameratokeyboard/types.py:133-138 | a finger exists for an index exactly when the index is in 0..9, and it is the finger with that index |
| Types.Trunc | cameratokeyboard/types.py:30-33 | `int()` of a real: the integer toward zero within distance one |
| Types.TruncOfInt | cameratokeyboard/types.py:30-33 | truncating an integral value gives it back |
| Types.Window | cameratokeyboard/types.py:76-85 | appending to a bounded history keeps the newest ten samples, ending with the new one |
| Types.PointValue.Updated | cameratokeyboard/types.py:76-85 | an update makes the truncated sample current, appending it and dropping the oldest once ten are held |
| Types.PointValue.X | cameratokeyboard/types.py:47-52 | for a valid point, the newest x sample, as `_x_history[-1]` |
| Types.PointValue.Y | cameratokeyboard/types.py:54-59 | for a valid point, the newest y sample, as `_y_history[-1]` |
| Types.PointValue.VelocityY | cameratokeyboard/types.py:93-100 | zero with fewer samples than the window, else the newest y minus the y at position `-window` (window − 1 samples before the newest), divided by `window` |
| Types.NewPoint | cameratokeyboard/types.py:30-33 | a new point holds one truncated sample |
| Types.PUpdateIsUpdate | cameratokeyboard/types.py:87-91 | updating from another point is updating with that point's coordinates |
| Types.UpdatesKeepHistoryBounded | cameratokeyboard/types.py:76-85 | any number of updates keeps the history at min(old length + updates, 10) |
| Types.VelocityExample | cameratokeyboard/types.py:93-100 | y going 2, 4, 6, 8 has window-3 velocity 4/3 |
| Types.UniformMotionVelocity | cameratokeyboard/types.py:93-100 | for a point moving a constant `d` per frame, the velocity times the window is `d * (window - 1)` |
| Types.PointValue.Equals | cameratokeyboard/types.py:35-36 | a point equals itself, and equal points have the same current x and y |
| Types.EqualityIgnoresHistory | cameratokeyboard/types.py:35-36 | for every valid point and every (x, y), the point moved to (x, y) equals a fresh point at (x, y) both ways, although their histories differ |
| Types.Point.constructor | cameratokeyboard/types.py:30-33 | a new point object holds one truncated sample |
| Types.Point.Update | cameratokeyboard/types.py:76-85 | the object's new value is the old value updated, and the object itself is returned |
| Types.Point.PUpdate | cameratokeyboard/types.py:87-91 | the object is updated with the other point's current coordinates |
| Types.Point.SetX | cameratokeyboard/types.py:61-63 | the newest x sample is overwritten and nothing else changes |
| Types.Point.SetY | cameratokeyboard/types.py:65-67 | the newest y sample is overwritten and nothing else changes |
| BoxSort.Insert | cameratokeyboard/core/detected_objects.py:115 | inserting into a list sorted by centre x keeps it sorted and adds exactly the box |
| BoxSort.SortByX | cameratokeyboard/core/detected_objects.py:115 | the boxes sorted by centre x form a sorted permutation of the input |
| BoxSort.SortIsStable | cameratokeyboard/core/detected_objects.py:115 | boxes with equal centre x keep their input order |
| DetectedObjects.OrdersPartitionFingers | cameratokeyboard/core/detected_objects.py:180-217 | the finger order lists exactly the non-thumbs, and the thumb order exactly the thumbs |
| DetectedObjects.FingerCoordinates | cameratokeyboard/core/detected_objects.py:180-203 | at most eight points, and eight exactly when every non-thumb finger is tracked |
| DetectedObjects.ThumbCoordinates | cameratokeyboard/core/detected_objects.py:205-217 | at most two points, and two exactly when both thumbs are tracked |
| DetectedObjects.CompleteIffAllTen | cameratokeyboard/core/detected_objects.py:180-217 | eight fingers and two thumbs are listed exactly when all ten are tracked |
| DetectedObjects.AverageFingerHeight | cameratokeyboard/core/detected_objects.py:226-233 | zero without finger boxes, else the sum of the heights divided by their number |
| DetectedObjects.AverageFingerWidth | cameratokeyboard/core/detected_objects.py:219-224 | no result exactly when there are no finger boxes (the source's division by zero raises); otherwise the sum of the widths divided by their number |
| DetectedObjects.SumHeightsNonNegative | cameratokeyboard/core/detected_objects.py:226-233 | boxes with non-negative heights have a non-negative height sum |
| DetectedObjects.AverageHeightExample | cameratokeyboard/core/detected_objects.py:226-233 | eight boxes of heights 10 to 150 in steps of 20 have average height 80 |
| DetectedObjects.Slot | cameratokeyboard/core/detected_objects.py:235-240 | the finger-box position a finger reads is below eight |
| DetectedObjects.SlotsOfFingers | cameratokeyboard/core/detected_objects.py:235-240 | the eight fingers read distinct boxes; the left thumb reads the right index's box and the right thumb the left index's |
| DetectedObjects.Observe | cameratokeyboard/core/detected_objects.py:242-253 | a tracked finger's point is updated in place; an untracked finger gets a new one-sample point |
| DetectedObjects.Identified | cameratokeyboard/core/detected_objects.py:165-178 | a finger's point after both identification passes is a valid point when present |
| DetectedObjects.FullDetectionGivesAllTen | cameratokeyboard/core/detected_objects.py:235-268 | with at least eight finger boxes and two thumb boxes, all ten fingers are tracked |
| DetectedObjects.ThumbsShareIndexBoxes | cameratokeyboard/core/detected_objects.py:235-253 | without thumb boxes and from any prior points, each thumb is tracked and equal (`Point.__eq__`: same current x and y) to the opposite index finger; from an empty tracker the two points are identical, histories included |
| DetectedObjects.IdentifiedExamples | cameratokeyboard/core/detected_objects.py:242-265 | a finger is placed at its box's x and at y plus a third of the box height, a thumb at y plus half of it, both truncated |
| DetectedObjects.CornerOf | cameratokeyboard/core/detected_objects.py:38-76 | a corner is missing exactly when its centre or size is missing, else it is the centre shifted by half the size |
| DetectedObjects.CountPresent | cameratokeyboard/core/detected_objects.py:90-95 | the count of present corners equals the list length exactly when none is missing |
| DetectedObjects.DetectedMarkers.constructor | cameratokeyboard/core/detected_objects.py:18-33 | with four or more sorted boxes the first four become bottom-left, top-left, top-right and bottom-right, sized; otherwise no field is set |
| DetectedObjects.DetectedMarkers.Update | cameratokeyboard/core/detected_objects.py:104-116 | the boxes are sorted by x; with fewer than four the corners stay as they were, else each moves to its box and is resized |
| DetectedObjects.DetectedMarkers.IdentifyMarkers | cameratokeyboard/core/detected_objects.py:118-145 | the same, for boxes already stored |
| DetectedObjects.DetectedMarkers.SetSizes | cameratokeyboard/core/detected_objects.py:130-145 | every corner gets its corrected width and its box's height, and the points do not move |
| DetectedObjects.DetectedMarkers.SetLeftSizes | cameratokeyboard/core/detected_objects.py:130-137 | the two left corners are sized and the right sizes are untouched |
| DetectedObjects.DetectedMarkers.SetRightSizes | cameratokeyboard/core/detected_objects.py:138-145 | the two right corners are sized and the left sizes are untouched |
| DetectedObjects.DetectedMarkers.BottomLeftMarker | cameratokeyboard/core/detected_objects.py:38-46 | the corner is present exactly when the marker is |
| DetectedObjects.DetectedMarkers.TopLeftMarker | cameratokeyboard/core/detected_objects.py:48-56 | the corner is present exactly when the marker is |
| DetectedObjects.DetectedMarkers.TopRightMarker | cameratokeyboard/core/detected_objects.py:58-66 | the corner is present exactly when the marker is |
| DetectedObjects.DetectedMarkers.BottomRightMarker | cameratokeyboard/core/detected_objects.py:68-76 | the corner is present exactly when the marker is |
| DetectedObjects.DetectedMarkers.AllMarkerCoordinates | cameratokeyboard/core/detected_objects.py:78-88 | always four entries, in corner order, whether or not the corners are present |
| DetectedObjects.DetectedMarkers.AnyMarkersMissing | cameratokeyboard/core/detected_objects.py:90-95 | true exactly when some corner is absent, which is exactly when none was ever set |
| DetectedObjects.DetectedMarkers.AllMarkersPresent | cameratokeyboard/core/detected_objects.py:97-102 | the negation of any-missing: all four corners present |
| DetectedObjects.DetectedFingersAndThumbs.constructor | cameratokeyboard/core/detected_objects.py:155-157 | the boxes are sorted and every finger's point is identified from scratch |
| DetectedObjects.DetectedFingersAndThumbs.Update | cameratokeyboard/core/detected_objects.py:165-178 | the boxes are sorted; each finger's point is its old point passed through both identification passes |
| DetectedObjects.DetectedFingersAndThumbs.IdentifyFingers | cameratokeyboard/core/detected_objects.py:235-253 | every finger's point becomes the result of the finger pass over the sorted finger boxes |
| DetectedObjects.DetectedFingersAndThumbs.IdentifyFinger | cameratokeyboard/core/detected_objects.py:236-253 | one finger is passed through the finger pass and the other fingers are untouched |
| DetectedObjects.DetectedFingersAndThumbs.TrackFinger | cameratokeyboard/core/detected_objects.py:242-253 | only the named finger's point changes: updated if tracked, created if not |
| DetectedObjects.DetectedFingersAndThumbs.IdentifyThumbs | cameratokeyboard/core/detected_objects.py:255-268 | every finger's point becomes the result of the thumb pass over the sorted thumb boxes |
| Calibration.Neighbor | cameratokeyboard/core/calibration.py:69-80 | each finger's reference is another finger, never a thumb, adjacent in index and on the same hand |
| Calibration.CalibrationValue | cameratokeyboard/core/calibration.py:82-92 | defined exactly when both points are tracked, and then the finger's y minus its neighbour's y |
| Calibration.Accepts | cameratokeyboard/core/calibration.py:26-31 | the guard of `append` (two thumbs and eight fingers listed) holds exactly when all ten identities are tracked |
| Calibration.AcceptsIffComplete | cameratokeyboard/core/calibration.py:26-31 | a snapshot is accepted exactly when all ten fingers are tracked, and then every finger has a calibration value |
| Calibration.ValuesFor | cameratokeyboard/core/calibration.py:100-106 | a finger collects at most one calibration value per history entry |
| Calibration.Contribution | cameratokeyboard/core/calibration.py:100-106 | one history entry adds one value for a finger exactly when its calibration value is defined |
| Calibration.Mean | cameratokeyboard/core/calibration.py:108-109 | the mean times the number of values is their sum |
| Calibration.SumOfConstant | cameratokeyboard/core/calibration.py:108-109 | a list of `n` copies of `c` sums to `c * n` |
| Calibration.MeanOfConstant | cameratokeyboard/core/calibration.py:108-109 | the mean of a constant list is that constant |
| Calibration.ValuesForNonEmpty | cameratokeyboard/core/calibration.py:100-109 | a history whose last entry is complete gives every finger a value, so the mean is defined |
| Calibration.ValuesForRepeated | cameratokeyboard/core/calibration.py:100-106 | a history of one repeated view collects that view's value once per entry, or nothing |
| Calibration.RepeatedStateBaseline | cameratokeyboard/core/calibration.py:94-109 | the baseline over a repeated view is the view's own calibration value |
| Calibration.LastN | cameratokeyboard/core/calibration.py:33-36 | `history[-n:]`: the last min(length, n) entries, or the whole list for n = 0 |
| Calibration.ViewsOf | cameratokeyboard/core/calibration.py:100 | each history entry is read through its tracker's current points |
| Calibration.AllFingersListed | cameratokeyboard/core/calibration.py:98 | the list of all fingers holds every finger |
| Calibration.AddContributions | cameratokeyboard/core/calibration.py:101-106 | every finger's list grows by that entry's contribution |
| Calibration.CollectDistances | cameratokeyboard/core/calibration.py:98-106 | every finger's list holds its calibration values over the history, in order |
| Calibration.NoDistances | cameratokeyboard/core/calibration.py:98 | every finger starts with an empty list |
| Calibration.ValuesForExtend | cameratokeyboard/core/calibration.py:100-106 | the values over one more entry are the earlier values plus that entry's contribution |
| Calibration.MeansOf | cameratokeyboard/core/calibration.py:108-109 | every finger's baseline is the mean of its list |
| Calibration.RepeatedTrackerCalibration | cameratokeyboard/core/calibration.py:94-109 | over a repeated complete view, every finger has values and its baseline is that view's calibration value |
| Calibration.AdjacentNeighborCalibration.constructor | cameratokeyboard/core/calibration.py:11-14 | empty history and empty cache |
| Calibration.AdjacentNeighborCalibration.IsCalibrated | cameratokeyboard/core/calibration.py:16-18 | in a valid state, calibrated exactly when every finger has a baseline; while uncalibrated every finger reads 0 |
| Calibration.AdjacentNeighborCalibration.CalibrationProgress | cameratokeyboard/core/calibration.py:20-24 | no result exactly when uncalibrated with history size 0 (the source's division by zero raises); otherwise a fraction in [0, 1], 1 exactly when calibrated in a valid state, else history length over history size |
| Calibration.AdjacentNeighborCalibration.Append | cameratokeyboard/core/calibration.py:26-41 | an incomplete snapshot is ignored; otherwise it joins the trimmed history, and once the history is full the cache becomes its baseline and the history empties |
| Calibration.AdjacentNeighborCalibration.Trimmed | cameratokeyboard/core/calibration.py:33-36 | the trimmed history ends with the new entry and holds at most history-size entries |
| Calibration.AdjacentNeighborCalibration.AppendAccepted | cameratokeyboard/core/calibration.py:33-41 | the accepted branch of append, with the same two outcomes |
| Calibration.AdjacentNeighborCalibration.CalibrateFromHistory | cameratokeyboard/core/calibration.py:39-41 | the cache becomes the baseline of the history, and the history empties |
| Calibration.AdjacentNeighborCalibration.CalculateCalibrationValues | cameratokeyboard/core/calibration.py:94-109 | an empty history leaves the cache alone; otherwise the cache becomes the per-finger mean over the history |
| Calibration.AdjacentNeighborCalibration.CalibrationFor | cameratokeyboard/core/calibration.py:55-60 | the cached baseline when there is one, 0 while uncalibrated, and in a valid calibrated state never the silent default |
| Calibration.AdjacentNeighborCalibration.GetCalibrationFor | cameratokeyboard/core/calibration.py:43-60 | the cached baseline of the finger, or 0 when none; the state is unchanged |
| DownDetection.Threshold | cameratokeyboard/core/finger_down_detector.py:48-50 | twice the average finger height at sensitivity 0, zero at sensitivity 1 or without finger boxes, never negative for a non-negative height and a sensitivity up to 1 |
| DownDetection.ThresholdFalls | cameratokeyboard/core/finger_down_detector.py:48-50 | with a non-negative average height, a higher sensitivity never raises the threshold |
| DownDetection.LowerThanAllOthers | cameratokeyboard/core/finger_down_detector.py:51-56 | true exactly when the finger has the greatest y of all tracked identities and no other identity shares it |
| DownDetection.IsDown | cameratokeyboard/core/finger_down_detector.py:30-58 | a down finger is tracked, has a tracked neighbour, is below every other tracked finger and is not moving down faster than the limit |
| DownDetection.DownFingerIsLowest | cameratokeyboard/core/finger_down_detector.py:30-58 | a down finger and its neighbour are tracked; its velocity is at most the limit; it is strictly lower than every other finger; its offset exceeds baseline plus threshold |
| DownDetection.AtMostOneDown | cameratokeyboard/core/finger_down_detector.py:51-58 | two down fingers in one snapshot are the same finger |
| DownDetection.MovingFingerIsNotDown | cameratokeyboard/core/finger_down_detector.py:34-36 | a finger moving down faster than the limit is not down |
| DownDetection.SensitivityIsMonotone | cameratokeyboard/core/finger_down_detector.py:48-58 | a finger down at some sensitivity stays down at any higher sensitivity |
| DownDetection.CalibrationIsMonotone | cameratokeyboard/core/finger_down_detector.py:46-58 | a finger down against a baseline stays down against any smaller baseline |
| DownDetection.DownExample | cameratokeyboard/core/finger_down_detector.py:30-58 | baseline 0, calibration value 10, average finger height 5 and sensitivity 0.5 give threshold 5, so the finger is down |
| DownDetection.FingerDownDetector.constructor | cameratokeyboard/core/finger_down_detector.py:12-14 | the detector keeps the strategy and the sensitivity |
| DownDetection.FingerDownDetector.IsFingerDown | cameratokeyboard/core/finger_down_detector.py:16-58 | the answer is the down rule applied to the snapshot and the finger's baseline, and the strategy keeps its state |
| KeyboardLayout.LastSegment | cameratokeyboard/core/keyboard_layouts/keyboard_layout.py:172 | `split("_")[-1]`: the suffix after the last underscore, or the whole name |
| KeyboardLayout.ParseInt | cameratokeyboard/core/keyboard_layouts/keyboard_layout.py:172 | `int()` of a row number: nothing for the empty text, the decimal value of plain digits, and a non-positive value after a minus sign |
| KeyboardLayout.ParseIntAcceptsOnlyNumerals | cameratokeyboard/core/keyboard_layouts/keyboard_layout.py:172 | only an optional sign followed by decimal digits parses |
| KeyboardLayout.RowNumberIsSuffix | cameratokeyboard/core/keyboard_layouts/keyboard_layout.py:172 | a row named `<anything>_<n>` has index n - 1 |
| KeyboardLayout.ParseDecimalDigits | cameratokeyboard/core/keyboard_layouts/keyboard_layout.py:172 | parsing the decimal digits of n gives n |
| KeyboardLayout.RowYIsProduct | cameratokeyboard/core/keyboard_layouts/keyboard_layout.py:181 | a row's y is its index times the key height |
| KeyboardLayout.PrefixedNothing | cameratokeyboard/core/keyboard_layouts/keyboard_layout.py:168-198 | prefixing no keys changes nothing |
| KeyboardLayout.PrefixedTwice | cameratokeyboard/core/keyboard_layouts/keyboard_layout.py:168-198 | prefixing twice is prefixing the concatenation |
| KeyboardLayout.RowKeysFrom | cameratokeyboard/core/keyboard_layouts/keyboard_layout.py:174-198 | a built row has one key per entry; a failure is an x or y error naming one of the row's keys; a non-empty row at y ≥ 1 always fails |
| KeyboardLayout.RowAt | cameratokeyboard/core/keyboard_layouts/keyboard_layout.py:171-198 | the bad-row-number error exactly when the row number does not parse; a built row has one key per entry |
| KeyboardLayout.FlatLayout | cameratokeyboard/core/keyboard_layouts/keyboard_layout.py:168-198 | built exactly when every row is; otherwise the error of the first failing row, every earlier row being built |
| KeyboardLayout.FlatLayoutFromRows | cameratokeyboard/core/keyboard_layouts/keyboard_layout.py:168-198 | the same, by induction over the rows |
| KeyboardLayout.RowKeysPositions | cameratokeyboard/core/keyboard_layouts/keyboard_layout.py:174-198 | a row is laid out exactly when every key starts left of 1 and the row starts above 1; each key then starts at the sum of the earlier widths |
| KeyboardLayout.RowKeysStartInside | cameratokeyboard/core/keyboard_layouts/keyboard_layout.py:174-198 | every laid-out key starts inside the unit square and has the key height |
| KeyboardLayout.RowAtStartsInside | cameratokeyboard/core/keyboard_layouts/keyboard_layout.py:171-198 | the same for a named row |
| KeyboardLayout.FlatLayoutStartsInside | cameratokeyboard/core/keyboard_layouts/keyboard_layout.py:168-198 | the same for the whole layout |
| KeyboardLayout.WideKeyAccepted | cameratokeyboard/core/keyboard_layouts/keyboard_layout.py:174-198 | a key that starts inside is accepted however far it reaches |
| KeyboardLayout.RowTooWideRefused | cameratokeyboard/core/keyboard_layouts/keyboard_layout.py:176-179 | a key that starts at x = 1 is refused, naming the key |
| KeyboardLayout.FirstRowIndex | cameratokeyboard/core/keyboard_layouts/keyboard_layout.py:172 | `row_1` is row 0 and lies at y = 0 |
| KeyboardLayout.RowKeys | cameratokeyboard/core/keyboard_layouts/keyboard_layout.py:174-198 | the loop lays out the row as the row function does |
| KeyboardLayout.BuildRow | cameratokeyboard/core/keyboard_layouts/keyboard_layout.py:171-198 | a named row is laid out at its index's height, or refused for a bad row number |
| KeyboardLayout.CalculateKeyCoordinates | cameratokeyboard/core/keyboard_layouts/keyboard_layout.py:168-198 | the loop produces the flat layout, or its first error |
| KeyboardLayout.Key.Contains | cameratokeyboard/core/keyboard_layouts/keyboard_layout.py:65-79 | closed intervals: a key of non-negative size holds its four corners, and a key of negative width or height holds no point |
| KeyboardLayout.FirstContaining | cameratokeyboard/core/keyboard_layouts/keyboard_layout.py:129-133 | the first key containing the point, or none when no key does |
| KeyboardLayout.KeyNameAt | cameratokeyboard/core/keyboard_layouts/keyboard_layout.py:117-133 | the empty name when no key contains the point, and otherwise the name of a key that contains it |
| KeyboardLayout.ConvertCoordinatesToKey | cameratokeyboard/core/keyboard_layouts/keyboard_layout.py:117-133 | the name of the first key containing the point, or the empty name |
| KeyboardLayout.SharedEdgeGoesLeft | cameratokeyboard/core/keyboard_layouts/keyboard_layout.py:65-79 | for any layout and any two keys where the earlier one ends at the x where the later one starts, a point on that edge lies in both, and the lookup answers the earlier key unless a key before it also contains the point |
| KeyboardLayout.GetKeyValue | cameratokeyboard/core/keyboard_layouts/keyboard_layout.py:135-147 | an unmapped name is its own value; a mapped name gives its one-character symbol |
| KeyboardLayout.IsModifierKey | cameratokeyboard/core/keyboard_layouts/keyboard_layout.py:149-159 | true exactly for the listed modifiers, none of which is mapped and all of which are longer than one letter |
| KeyboardLayout.KeyValuesAreCharacters | cameratokeyboard/core/keyboard_layouts/keyboard_layout.py:135-147 | a one-letter key types itself, and every mapped key types one character |
| KeyboardLayout.ModifiersAreUnmapped | cameratokeyboard/core/keyboard_layouts/keyboard_layout.py:37-48 | a modifier key has no value of its own and a name longer than one letter |
| KeyboardLayout.GetKeyValueExamples | cameratokeyboard/core/keyboard_layouts/keyboard_layout.py:135-159 | `space` types a blank, `a` types itself, and left shift is a modifier while `a` is not |
| Frame.BoxesOf | cameratokeyboard/core/detected_frame.py:153-167 | the filtered boxes are no more than the detections |
| Frame.BoxesOfAppend | cameratokeyboard/core/detected_frame.py:153-167 | filtering distributes over concatenation, so detection order is kept |
| Frame.BoxesOfMembership | cameratokeyboard/core/detected_frame.py:153-167 | a box is kept exactly when some detection with it has the class and a confidence strictly above the minimum |
| Frame.KeptFromInit | cameratokeyboard/core/detected_frame.py:153-167 | a box is kept from a list exactly when it is kept from all but the last detection or from the last one |
| Frame.OtherClassesDropped | cameratokeyboard/core/detected_frame.py:153-167 | a detection of any other class gives no box to any tracker |
| Frame.DownAmong | cameratokeyboard/core/detected_frame.py:210-214 | no more fingers than listed, and each collected finger is listed and down |
| Frame.DownFingers | cameratokeyboard/core/detected_frame.py:206-217 | at most four fingers, each of them down |
| Frame.DownAmongStep | cameratokeyboard/core/detected_frame.py:210-214 | asking about one more finger appends it exactly when it is down |
| Frame.DownAmongMembership | cameratokeyboard/core/detected_frame.py:210-214 | a finger is collected exactly when it is listed and down |
| Frame.DownAmongAtMostOne | cameratokeyboard/core/detected_frame.py:210-214 | over distinct fingers, at most one is collected |
| Frame.DownFingersAtMostOne | cameratokeyboard/core/detected_frame.py:206-217 | the down set has at most one finger and holds exactly the fingers that are down |
| Frame.CornersOf | cameratokeyboard/core/math.py:83-91 | the transform's corners are unavailable exactly when a marker is missing |
| Frame.KeyStep | cameratokeyboard/core/detected_frame.py:225-247 | one finger adds at most one key and keeps every earlier lock; only that finger can gain a lock; a failure needs an unlocked non-thumb without a point or corners; an unlocked thumb adds a space |
| Frame.MapKeys | cameratokeyboard/core/detected_frame.py:222-247 | at most one key per down finger, and every lock held before the loop is kept with its key |
| Frame.Pruned | cameratokeyboard/core/detected_frame.py:249-253 | the kept locks are exactly those of fingers still down, with their keys |
| Frame.MapKeysStopsAtFailure | cameratokeyboard/core/detected_frame.py:219-247 | once the transform has raised, no later finger changes the keys or locks |
| Frame.MapKeysShape | cameratokeyboard/core/detected_frame.py:219-247 | at most one key per down finger; old locks are kept; new locks are only for down fingers; a failure comes from an unlocked non-thumb with no point or no corners |
| Frame.LockedFingerRepeatsKey | cameratokeyboard/core/detected_frame.py:225-227 | a locked finger types its locked key again |
| Frame.ThumbTypesSpace | cameratokeyboard/core/detected_frame.py:229-232 | an unlocked thumb types a space and locks it |
| Frame.ModifierTypesNothing | cameratokeyboard/core/detected_frame.py:241-243 | a finger on a modifier key types nothing and locks nothing |
| Frame.MissingMarkersFail | cameratokeyboard/core/math.py:86-91 | an unlocked finger that is not a thumb cannot be mapped without markers |
| Frame.Classify | cameratokeyboard/core/detected_frame.py:188-204 | the state is never initializing; missing markers exactly when the marker count is not four; otherwise missing fingers, then missing thumbs; valid exactly when four markers and a complete snapshot |
| Frame.AliasedHistoryBaseline | cameratokeyboard/core/detected_frame.py:135-145 | a history holding only the frame's tracker calibrates every finger to the tracker's current distance |
| Frame.DetectedFrame.constructor | cameratokeyboard/core/detected_frame.py:21-50 | the thresholds, layout and strategy are stored; no trackers, no calibration, no down fingers, and the state is initializing |
| Frame.DetectedFrame.RequiresCalibration | cameratokeyboard/core/detected_frame.py:100-102 | calibration is required exactly when the strategy has no baselines |
| Frame.DetectedFrame.CalibrationProgress | cameratokeyboard/core/detected_frame.py:108-110 | a fraction that is 1 exactly when calibrated, else the history length over 100 |
| Frame.DetectedFrame.MarkerCoordinates | cameratokeyboard/core/detected_frame.py:67-72 | nothing before the first frame, else four corners with one absent exactly when markers are missing |
| Frame.DetectedFrame.Update | cameratokeyboard/core/detected_frame.py:112-129 | trackers hold the filtered sorted boxes; the marker corners and sizes and every finger point follow from those boxes and the trackers' previous contents, as the tracker updates say; valid exactly when the snapshot is complete, never missing markers; calibration fed as handle-calibration says; down fingers found; keys mapped with locks pruned on success; failure only without markers |
| Frame.DetectedFrame.Respond | cameratokeyboard/core/detected_frame.py:125-129 | the state, calibration, down-finger and key steps for trackers already updated |
| Frame.DetectedFrame.SetState | cameratokeyboard/core/detected_frame.py:188-204 | the state is the classification of four marker entries and the tracker's snapshot, so valid exactly when the snapshot is complete |
| Frame.DetectedFrame.React | cameratokeyboard/core/detected_frame.py:126-129 | calibration, down-finger detection and key mapping after the state is set |
| Frame.DetectedFrame.DetectKeys | cameratokeyboard/core/detected_frame.py:128-129 | the down fingers are found as down-detection says, then mapped as the key loop says; calibration and the state are untouched |
| Frame.DetectedFrame.StartCalibration | cameratokeyboard/core/detected_frame.py:131-133 | calibration is in progress with the given callback, and nothing else changes |
| Frame.DetectedFrame.CalculateCoordinates | cameratokeyboard/core/detected_frame.py:147-170 | both trackers exist (created once, updated after) and hold the filtered sorted boxes; with fewer than four marker boxes the marker fields are kept (unset on a new tracker), otherwise the corners move from their previous values and are resized; each finger point is the identification pass over its previous point (none on a new tracker); nothing else changes |
| Frame.DetectedFrame.UpdateMarkers | cameratokeyboard/core/detected_frame.py:172-176 | the marker tracker is created on the first frame and updated in place later, holding the sorted boxes; with fewer than four boxes its fields are kept (unset when new), otherwise the four corners move from their previous values (fresh points when new) and are resized |
| Frame.DetectedFrame.UpdateFingersAndThumbs | cameratokeyboard/core/detected_frame.py:178-186 | the finger tracker is created on the first frame and updated in place later; each point is the identification pass over the previous point (none when new); a tracked finger stays tracked |
| Frame.DetectedFrame.HandleCalibration | cameratokeyboard/core/detected_frame.py:135-145 | outside calibration or on an invalid frame nothing changes; else the tracker is appended, and on the 100th frame the baselines become the tracker's distances, calibration ends and the callback runs |
| Frame.DetectedFrame.FeedCalibration | cameratokeyboard/core/detected_frame.py:137-139 | the append completes calibration exactly on the 100th frame, then with the tracker's current distances; otherwise the tracker joins the history |
| Frame.DetectedFrame.DetectDownFingers | cameratokeyboard/core/detected_frame.py:206-217 | uncalibrated, the down set is kept; calibrated, it is exactly the fingers that are down |
| Frame.DetectedFrame.FindDownFingers | cameratokeyboard/core/detected_frame.py:210-214 | the loop over all fingers collects exactly the down ones, and the strategy keeps its state |
| Frame.DetectedFrame.MapDownFingersToKeys | cameratokeyboard/core/detected_frame.py:219-253 | the keys and locks are those of the key loop, pruned on success; a failure means a marker is missing |
| Frame.DetectedFrame.KeyLoop | cameratokeyboard/core/detected_frame.py:222-247 | the loop's keys and locks are those of the key-loop function |
| Frame.DetectedFrame.KeyFor | cameratokeyboard/core/detected_frame.py:225-247 | one pass of the key loop for one finger gives exactly the key step's keys, locks and failure |
| App.Press | cameratokeyboard/app/app.py:90-100 | a key is refused exactly when it was let through less than `delay` ago; on refusal nothing changes, else `now` is recorded; other keys keep their times |
| App.AllowedPressesAreSpaced | cameratokeyboard/app/app.py:96-97 | after a key is let through, it is refused again until `delay` has passed |
| App.RefusedPressChangesNothing | cameratokeyboard/app/app.py:96-97 | a refused press changes nothing and repeating it gives the same answer |
| App.KeysAreIndependent | cameratokeyboard/app/app.py:96-100 | a press of one key does not change the answer for another |
| App.ThrottleExample | cameratokeyboard/app/app.py:90-100 | with delay 0.5: the first press passes, one 0.1 s later is refused, one 0.5 s later passes |
| App.RepeatingKeysThrottler.constructor | cameratokeyboard/app/app.py:86-88 | the delay is stored and no key has been pressed |
| App.RepeatingKeysThrottler.KeyPressAllowed | cameratokeyboard/app/app.py:90-100 | the answer and the new press times are those of one press at `now` |
| Ui.Holds | cameratokeyboard/app/ui.py:422-432 | true exactly when some entry holds the task |
| Ui.Scheduled | cameratokeyboard/app/ui.py:395-408 | the task is then listed; a unique add of a listed task changes nothing, any other add appends exactly `(at, task)` to the end |
| Ui.UniqueAddKeepsDistinct | cameratokeyboard/app/ui.py:405-408 | unique adds never list a task twice |
| Ui.UniqueAddIsIdempotent | cameratokeyboard/app/ui.py:405-406 | a second unique add of the same task changes nothing, whatever its time |
| Ui.AddingKeepsOthers | cameratokeyboard/app/ui.py:405-408 | adding a task keeps every task already listed |
| Ui.TaskScheduler.constructor | cameratokeyboard/app/ui.py:392-393 | the task list starts empty |
| Ui.TaskScheduler.TaskExists | cameratokeyboard/app/ui.py:422-432 | true exactly when some entry holds the task |
| Ui.TaskScheduler.AddTaskAt | cameratokeyboard/app/ui.py:395-408 | the list becomes the scheduled list, and the task is listed |
| Ui.TaskScheduler.AddTaskIn | cameratokeyboard/app/ui.py:410-420 | the task is scheduled at `now + delay` |

## Left out

- The perspective transform (`finger_to_keyboard_fractional_coordinates` in the math module) is a function parameter of the frame. Its matrix arithmetic is not modelled. Its guard, which raises without a finger point or a marker, is modelled.
- The marker width correction (the math module's arctangent formula) is a parameter of the marker tracker, and it is a total function. The `ZeroDivisionError` that cameratokeyboard/core/math.py:48 raises when a marker box's y equals its partner corner's y is not modelled. Floating-point trigonometry is not modelled.
- Floats are reals: rounding, NaN and infinities are not modelled.
- The trackers hold point values (`PointValue`), not `Point` objects. Updating a point in place is modelled as replacing its entry with the updated value. The frame's down-finger list does hold the tracker's `Point` objects (cameratokeyboard/core/detected_frame.py:214), and the key loop projects them. The behaviour still agrees, for four reasons. A non-thumb's `Point` is only ever updated in place by `pupdate`. The model's key step projects the tracker's current value. The frame's invariant keeps every down non-thumb tracked. Thumb points are never projected. The `Point` class models the object's own methods.
- A right thumb set to `None` is an absent entry in the model. Lookups answer `None` for both, so reads cannot tell them apart.
- The detector output object is a sequence of class, confidence and box triples. The image and the tensors around it are not modelled.
- Frame.DetectedFrame.constructor: the first `update` that the source's constructor performs is the caller's first `Update` call.
- The calibration callback is a handle. Calling it, and what it does, are not modelled; `Update` returns the handle it would call.
- `time.time()` is a parameter (`now`) of the throttle and of `add_task_in`.
- `TaskScheduler.tick`, which runs and removes due tasks, is not part of this model: it calls arbitrary UI callbacks.
- The application loop, the UI drawing, the camera and the detector model are not part of this model.
- The hand-baseline calibration strategy is not part of this model; only the adjacent-neighbour strategy the frame uses is.
- Reading the keyboard layout from its YAML file is not modelled. The frame takes the laid-out keys, and the layout model starts from the parsed rows.
- KeyboardLayout.BuildRow: the model parses a row number as an optional `+` or `-` followed by ASCII digits. It refuses, as a bad row number, the surrounding whitespace and the non-ASCII digits that Python's `int()` also accepts. Underscores never reach `int()`, because the name is split on them first.
- The real-world dimensions, the `current_frame` image and the other plain getters of the frame are not modelled.
- Types.PointValue.VelocityY: the window is any positive integer, but the history holds only the last ten samples, so a window above ten always gives 0.
- The cap that discards more than four down fingers is modelled (`Frame.DownFingers`, `Frame.DetectedFrame.DetectDownFingers`) and proved never to fire: at most one finger is ever down (`Frame.DownFingersAtMostOne`).

=== FILE: app.dfy ===
/** The application's throttle for repeating keys: a key that is held down is typed again only
    once `delay` seconds have passed since it was last let through. The clock is a parameter. */
module App {

  /** What a press of `key` at time `now` answers, and the press times afterwards: refused,
      with nothing recorded, when the key was let through less than `delay` ago; otherwise
      allowed, with `now` recorded for the key. */
  function Press(keys: map<string, real>, key: string, now: real, delay: real): (r: (bool, map<string, real>))
    ensures key !in keys ==> r == (true, keys[key := now])
    ensures key in keys && now - keys[key] < delay ==> r == (false, keys)
    ensures key in keys && now - keys[key] >= delay ==> r == (true, keys[key := now])
    ensures forall k :: k != key ==> (k in r.1 <==> k in keys) && (k in keys ==> r.1[k] == keys[k])
  {
    if key in keys && now - keys[key] < delay then (false, keys)
    else (true, keys[key := now])
  }

  /** A key let through at `now` is refused at any later time closer to `now` than `delay`. */
  lemma AllowedPressesAreSpaced(keys: map<string, real>, key: string, now: real, later: real, delay: real)
    requires Press(keys, key, now, delay).0
    requires later - now < delay
    ensures !Press(Press(keys, key, now, delay).1, key, later, delay).0
  {
  }

  /** A refused press records nothing, so it can be repeated without effect. */
  lemma RefusedPressChangesNothing(keys: map<string, real>, key: string, now: real, delay: real)
    requires !Press(keys, key, now, delay).0
    ensures Press(keys, key, now, delay).1 == keys
    ensures Press(keys, key, now, delay) == Press(Press(keys, key, now, delay).1, key, now, delay)
  {
  }

  /** Presses of different keys do not throttle each other: whether `other` is let through
      does not depend on a press of `key` just before. */
  lemma KeysAreIndependent(keys: map<string, real>, key: string, other: string, t1: real, t2: real, delay: real)
    requires key != other
    ensures Press(Press(keys, key, t1, delay).1, other, t2, delay).0 == Press(keys, other, t2, delay).0
  {
  }

  /** The throttle with a delay of 0.5 s: a first press is allowed, a second 0.1 s later is
      refused, and one 0.5 s after the first is allowed. */
  lemma ThrottleExample()
    ensures Press(map[], "a", 0.0, 0.5) == (true, map["a" := 0.0])
    ensures Press(map["a" := 0.0], "a", 0.1, 0.5) == (false, map["a" := 0.0])
    ensures Press(map["a" := 0.0], "a", 0.5, 0.5) == (true, map["a" := 0.5])
  {
    assert map[]["a" := 0.0] == map["a" := 0.0];
    assert map["a" := 0.0]["a" := 0.5] == map["a" := 0.5];
  }

  /** `RepeatingKeysThrottler`: the delay and the time each key was last let through. */
  class RepeatingKeysThrottler {
    const delay: real
    var keys: map<string, real>

    constructor (delay: real)
      ensures this.delay == delay && keys == map[]
    {
      this.delay := delay;
      keys := map[];
    }

    /** `key_press_allowed` at time `now`. */
    method KeyPressAllowed(key: string, now: real) returns (allowed: bool)
      modifies this
      ensures (allowed, keys) == Press(old(keys), key, now, delay)
    {
      if key in keys && now - keys[key] < delay {
        return false;
      }
      keys := keys[key := now];
      return true;
    }
  }
}

=== FILE: box_sort.dfy ===
/** Python's stable `sorted(boxes, key=lambda box: box[0])`: detection boxes
    ordered by centre x, boxes with equal x keeping their input order. */
module BoxSort {
  import opened Types

  predicate SortedByX(s: seq<Box>)
  {
    forall i, j :: 0 <= i < j < |s| ==> s[i].cx <= s[j].cx
  }

  /** Inserts `b` into the sorted `s` in front of every box whose x is not smaller. */
  function Insert(b: Box, s: seq<Box>): (r: seq<Box>)
    requires SortedByX(s)
    ensures SortedByX(r) && multiset(r) == multiset(s) + multiset{b}
  {
    if s == [] then [b]
    else if b.cx <= s[0].cx then [b] + s
    else
      var t := Insert(b, s[1..]);
      InsertBehindHead(b, s, t);
      [s[0]] + t
  }

  /** Inserting behind the head of `s` a box with a larger x keeps the head first, and the
      head joins the multiset. */
  lemma InsertBehindHead(b: Box, s: seq<Box>, t: seq<Box>)
    requires SortedByX(s) && s != [] && s[0].cx < b.cx
    requires multiset(t) == multiset(s[1..]) + multiset{b}
    ensures forall k :: 0 <= k < |t| ==> s[0].cx <= t[k].cx
    ensures multiset([s[0]] + t) == multiset(s) + multiset{b}
  {
    assert s == [s[0]] + s[1..];
    forall k | 0 <= k < |t| ensures s[0].cx <= t[k].cx {
      assert t[k] in multiset(t);
    }
  }

  /** The boxes sorted by centre x: a sorted permutation of the input. */
  function SortByX(s: seq<Box>): (r: seq<Box>)
    ensures SortedByX(r) && multiset(r) == multiset(s) && |r| == |s|
  {
    if s == [] then []
    else
      assert s == [s[0]] + s[1..];
      Insert(s[0], SortByX(s[1..]))
  }

  /** The boxes of `s` whose centre x is `x`, in their order in `s`. */
  function WithX(s: seq<Box>, x: real): seq<Box>
  {
    if s == [] then [] else (if s[0].cx == x then [s[0]] else []) + WithX(s[1..], x)
  }

  lemma {:induction false} WithXAppend(a: seq<Box>, b: seq<Box>, x: real)
    ensures WithX(a + b, x) == WithX(a, x) + WithX(b, x)
  {
    if a != [] {
      assert (a + b)[1..] == a[1..] + b;
      WithXAppend(a[1..], b, x);
    } else {
      assert a + b == b;
    }
  }

  lemma {:induction false} InsertIsStable(b: Box, s: seq<Box>, x: real)
    requires SortedByX(s)
    ensures WithX(Insert(b, s), x) == WithX([b], x) + WithX(s, x)
  {
    if s != [] && b.cx > s[0].cx {
      InsertIsStable(b, s[1..], x);
      WithXAppend([s[0]], Insert(b, s[1..]), x);
      assert [s[0]] + Insert(b, s[1..]) == Insert(b, s);
      assert b.cx == x ==> s[0].cx != x;
    } else if s != [] {
      WithXAppend([b], s, x);
    }
  }

  /** Stability: for every x, the boxes at that x appear in the sorted list in input order. */
  lemma {:induction false} SortIsStable(s: seq<Box>, x: real)
    ensures WithX(SortByX(s), x) == WithX(s, x)
  {
    if s != [] {
      SortIsStable(s[1..], x);
      InsertIsStable(s[0], SortByX(s[1..]), x);
    }
  }
}

=== FILE: calibration.dfy ===
/** The adjacent-neighbour calibration strategy: for every finger, the mean over a history of
    complete tracker states of the vertical distance between the finger and a fixed neighbour. */
module Calibration {
  import opened Types
  import opened DetectedObjects

  /** The neighbour each finger is measured against (`_adjacent_neighbors_for_calibration_map`). */
  function Neighbor(f: Finger): (n: Finger)
    ensures n != f && !n.IsThumb()
    ensures n.Index() == f.Index() + 1 || n.Index() + 1 == f.Index()
    ensures (n.Index() < 5) == (f.Index() < 5)
  {
    match f
    case LeftPinky => LeftRing
    case LeftRing => LeftMiddle
    case LeftMiddle => LeftIndex
    case LeftIndex => LeftMiddle
    case LeftThumb => LeftIndex
    case RightThumb => RightIndex
    case RightIndex => RightMiddle
    case RightMiddle => RightIndex
    case RightRing => RightMiddle
    case RightPinky => RightRing
  }

  /** `calculate_calibration_value`: the finger's y minus its neighbour's y, undefined unless
      both are tracked. */
  function CalibrationValue(points: map<Finger, PointValue>, f: Finger): (v: Option<int>)
    ensures v.Some? <==> f in points && Neighbor(f) in points
    ensures v.Some? ==> v.value == points[f].Y() - points[Neighbor(f)].Y()
  {
    if f in points && Neighbor(f) in points then Some(points[f].Y() - points[Neighbor(f)].Y())
    else None
  }

  /** The guard of `append`: two thumbs and eight fingers are tracked. */
  function Accepts(s: Snapshot): (b: bool)
    ensures b <==> forall f :: f in s.points
  {
    CompleteIffAllTen(s);
    |ThumbCoordinates(s)| >= 2 && |FingerCoordinates(s)| >= 8
  }

  /** A state is accepted exactly when every one of the ten identities is tracked, and then
      every finger has a calibration value. */
  lemma AcceptsIffComplete(s: Snapshot)
    ensures Accepts(s) <==> forall f :: f in s.points
    ensures Accepts(s) ==> forall f :: CalibrationValue(s.points, f).Some?
  {
    CompleteIffAllTen(s);
  }

  /** The calibration values of `f` over the history views, oldest first, skipping the views
      in which it is undefined. */
  function ValuesFor(views: seq<map<Finger, PointValue>>, f: Finger): (vs: seq<int>)
    ensures |vs| <= |views|
  {
    if views == [] then []
    else ValuesFor(views[..|views| - 1], f) + Contribution(views[|views| - 1], f)
  }

  /** The value one history entry adds for `f`: its calibration value, if defined. */
  function Contribution(points: map<Finger, PointValue>, f: Finger): (vs: seq<int>)
    ensures |vs| <= 1
    ensures |vs| == 1 <==> CalibrationValue(points, f).Some?
  {
    var v := CalibrationValue(points, f);
    if v.Some? then [v.value] else []
  }

  /** Every identity is tracked. */
  predicate Complete(points: map<Finger, PointValue>)
  {
    forall g :: g in points
  }

  function Sum(vs: seq<int>): int
  {
    if vs == [] then 0 else Sum(vs[..|vs| - 1]) + vs[|vs| - 1]
  }

  /** `sum(distances) / len(distances)`. */
  function Mean(vs: seq<int>): (m: real)
    requires |vs| > 0
    ensures m * |vs| as real == Sum(vs) as real
  {
    Sum(vs) as real / |vs| as real
  }

  lemma {:induction false} SumOfConstant(vs: seq<int>, c: int)
    requires forall i :: 0 <= i < |vs| ==> vs[i] == c
    ensures Sum(vs) == c * |vs|
  {
    if vs != [] {
      SumOfConstant(vs[..|vs| - 1], c);
    }
  }

  /** The mean of equal values is that value. */
  lemma MeanOfConstant(vs: seq<int>, c: int)
    requires |vs| > 0 && forall i :: 0 <= i < |vs| ==> vs[i] == c
    ensures Mean(vs) == c as real
  {
    SumOfConstant(vs, c);
  }

  /** A view in which the finger and its neighbour are tracked contributes one value, so a
      history ending in an accepted state gives every finger at least one value. */
  lemma {:induction false} ValuesForNonEmpty(views: seq<map<Finger, PointValue>>, f: Finger)
    requires views != [] && Complete(views[|views| - 1])
    ensures |ValuesFor(views, f)| > 0
  {
  }

  /** A history made of one state repeated `n` times contributes that state's value `n` times. */
  lemma {:induction false} ValuesForRepeated(views: seq<map<Finger, PointValue>>, v: map<Finger, PointValue>, f: Finger)
    requires forall k :: 0 <= k < |views| ==> views[k] == v
    ensures CalibrationValue(v, f).Some? ==>
              |ValuesFor(views, f)| == |views| &&
              forall i :: 0 <= i < |views| ==> ValuesFor(views, f)[i] == CalibrationValue(v, f).value
    ensures CalibrationValue(v, f).None? ==> ValuesFor(views, f) == []
  {
    if views != [] {
      ValuesForRepeated(views[..|views| - 1], v, f);
    }
  }

  /** When every history entry is the same tracker, the baseline of a finger is the value of
      that tracker's current state: the history adds nothing to the last state. */
  lemma RepeatedStateBaseline(views: seq<map<Finger, PointValue>>, v: map<Finger, PointValue>, f: Finger)
    requires views != [] && forall k :: 0 <= k < |views| ==> views[k] == v
    requires CalibrationValue(v, f).Some?
    ensures |ValuesFor(views, f)| > 0
    ensures Mean(ValuesFor(views, f)) == CalibrationValue(v, f).value as real
  {
    ValuesForRepeated(views, v, f);
    MeanOfConstant(ValuesFor(views, f), CalibrationValue(v, f).value);
  }

  /** `cache` holds, for every finger, the mean of its calibration values over `views`. */
  ghost predicate IsBaseline(cache: map<Finger, real>, views: seq<map<Finger, PointValue>>)
  {
    forall f :: |ValuesFor(views, f)| > 0 && f in cache && cache[f] == Mean(ValuesFor(views, f))
  }

  /** The calibrated distance of `f` in a cache: its mean, or 0 for a finger without one. */
  function BaselineOf(cache: map<Finger, real>, f: Finger): real
  {
    if f in cache then cache[f] else 0.0
  }

  /** The last `n` entries of `h`, as `h[-n:]` does; `n == 0` keeps everything. */
  function LastN<T>(h: seq<T>, n: nat): (r: seq<T>)
    ensures n == 0 ==> r == h
    ensures n > 0 ==> |r| == Min(|h|, n)
    ensures |r| <= |h| && r == h[|h| - |r|..]
  {
    if n == 0 || |h| <= n then h else h[|h| - n..]
  }

  /** The current states of a history of trackers. */
  function ViewsOf(ts: seq<DetectedFingersAndThumbs>): (vs: seq<map<Finger, PointValue>>)
    reads ts
    ensures |vs| == |ts|
    ensures forall k :: 0 <= k < |ts| ==> vs[k] == ts[k].coordinates
  {
    if ts == [] then [] else ViewsOf(ts[..|ts| - 1]) + [ts[|ts| - 1].coordinates]
  }

  lemma AllFingersListed(fingers: seq<Finger>)
    requires fingers == Values()
    ensures forall f :: f in fingers
  {
    forall f: Finger ensures f in fingers {
      assert fingers[f.Index()] == f;
    }
  }

  /** The inner loop of `_calculate_calibration_values`: one entry adds its value, if any,
      to the list of every finger. */
  method AddContributions(distances: map<Finger, seq<int>>, entry: map<Finger, PointValue>)
    returns (r: map<Finger, seq<int>>)
    requires forall f :: f in distances
    ensures forall f :: f in r && r[f] == distances[f] + Contribution(entry, f)
  {
    var fingers := Values();
    r := distances;
    var j := 0;
    while j < |fingers|
      invariant 0 <= j <= |fingers|
      invariant forall f :: f in r
      invariant forall f: Finger :: f.Index() < j ==> r[f] == distances[f] + Contribution(entry, f)
      invariant forall f: Finger :: f.Index() >= j ==> r[f] == distances[f]
    {
      var finger := fingers[j];
      assert finger.Index() == j;
      var value := CalibrationValue(entry, finger);
      if value.Some? {
        r := r[finger := r[finger] + [value.value]];
      } else {
        assert Contribution(entry, finger) == [];
      }
      j := j + 1;
    }
  }

  /** The first loop of `_calculate_calibration_values`: the calibration values of every
      finger, entry by entry through the current states of the history. */
  method CollectDistances(views: seq<map<Finger, PointValue>>) returns (distances: map<Finger, seq<int>>)
    ensures forall f :: f in distances && distances[f] == ValuesFor(views, f)
  {
    distances := NoDistances();
    var k := 0;
    while k < |views|
      invariant 0 <= k <= |views|
      invariant forall f :: f in distances && distances[f] == ValuesFor(views[..k], f)
    {
      var next := AddContributions(distances, views[k]);
      forall f ensures next[f] == ValuesFor(views[..k + 1], f) {
        ValuesForExtend(views, k, f);
      }
      distances := next;
      k := k + 1;
    }
    assert views[..|views|] == views;
  }

  /** `{finger: [] for finger in Fingers.values()}`. */
  function NoDistances(): (m: map<Finger, seq<int>>)
    ensures forall f :: f in m && m[f] == []
  {
    var fingers := Values();
    AllFingersListed(fingers);
    map f | f in fingers :: []
  }

  lemma ValuesForExtend(views: seq<map<Finger, PointValue>>, k: nat, f: Finger)
    requires k < |views|
    ensures ValuesFor(views[..k + 1], f) == ValuesFor(views[..k], f) + Contribution(views[k], f)
  {
    assert views[..k + 1][..k] == views[..k];
  }

  /** The last loop of `_calculate_calibration_values`: the mean of every finger's values. */
  method MeansOf(distances: map<Finger, seq<int>>) returns (means: map<Finger, real>)
    requires forall f :: f in distances && |distances[f]| > 0
    ensures forall f :: f in means && means[f] == Mean(distances[f])
  {
    var fingers := Values();
    means := map[];
    var j := 0;
    while j < |fingers|
      invariant 0 <= j <= |fingers|
      invariant forall f: Finger :: f.Index() < j ==> f in means && means[f] == Mean(distances[f])
    {
      var finger := fingers[j];
      assert finger.Index() == j;
      means := means[finger := Mean(distances[finger])];
      j := j + 1;
    }
  }

  /** `AdjacentNeighborCalibrationStrategy`. The history holds the trackers themselves, so an
      entry shows the tracker's state at the time the values are computed. */
  class AdjacentNeighborCalibration {
    const historySize: nat
    var history: seq<DetectedFingersAndThumbs>
    var cache: map<Finger, real>

    /** The history never reaches its size (it is emptied when it does), and the cache is
        empty or holds every finger. */
    ghost predicate Valid()
      reads this
    {
      && (|history| < historySize || history == [])
      && (cache == map[] || forall f :: f in cache)
    }

    constructor (historySize: nat)
      ensures Valid() && this.historySize == historySize && history == [] && cache == map[]
    {
      this.historySize := historySize;
      history := [];
      cache := map[];
    }

    /** `is_calibrated`: the cache is not empty. In a valid state that means every finger has
        its baseline; while it is empty every finger reads the silent default 0. */
    function IsCalibrated(): (b: bool)
      reads this
      ensures Valid() ==> (b <==> forall f :: f in cache)
      ensures !b ==> forall f :: BaselineOf(cache, f) == 0.0
    {
      assert LeftPinky in cache ==> cache != map[];
      cache != map[]
    }

    /** `calibration_progress`: 1 once calibrated, else the filled share of the history;
        `None` for an uncalibrated strategy of history size 0, where the source's division
        raises `ZeroDivisionError`. */
    function CalibrationProgress(): (p: Option<real>)
      reads this
      ensures p.None? <==> historySize == 0 && !IsCalibrated()
      ensures p.Some? ==> 0.0 <= p.value <= 1.0
      ensures IsCalibrated() ==> p == Some(1.0)
      ensures p.Some? && !IsCalibrated() && |history| <= historySize ==>
                p.value * historySize as real == |history| as real
      ensures p.Some? && Valid() ==> (p.value == 1.0 <==> IsCalibrated())
    {
      if IsCalibrated() then Some(1.0)
      else if historySize == 0 then None
      else
        var q := |history| as real / historySize as real;
        Some(if q < 1.0 then q else 1.0)
    }

    /** The value `get_calibration_for` answers. */
    function CalibrationFor(f: Finger): (v: real)
      reads this
      ensures f in cache ==> v == cache[f]
      ensures !IsCalibrated() ==> v == 0.0
      ensures Valid() && IsCalibrated() ==> f in cache && v == cache[f]
    {
      BaselineOf(cache, f)
    }

    /** `append`: an accepted tracker joins the history (trimmed to its size) and clears the
        cache; a full history is turned into the cache and emptied. Other trackers change nothing. */
    method Append(t: DetectedFingersAndThumbs)
      requires Valid() && t.Valid()
      modifies this`history, this`cache
      ensures Valid()
      ensures !Accepts(t.AsSnapshot()) ==> history == old(history) && cache == old(cache)
      ensures Accepts(t.AsSnapshot()) && |Trimmed(old(history), t)| < historySize ==>
                history == Trimmed(old(history), t) && cache == map[]
      ensures Accepts(t.AsSnapshot()) && |Trimmed(old(history), t)| >= historySize ==>
                history == [] && IsBaseline(cache, old(ViewsOf(Trimmed(history, t))))
    {
      var s := t.AsSnapshot();
      if |ThumbCoordinates(s)| < 2 || |FingerCoordinates(s)| < 8 {
        return;
      }
      AcceptsIffComplete(s);
      AppendAccepted(t);
    }

    /** The history with `t` appended, trimmed to its last `historySize` entries. */
    function Trimmed(h: seq<DetectedFingersAndThumbs>, t: DetectedFingersAndThumbs): (r: seq<DetectedFingersAndThumbs>)
      ensures r != [] && r[|r| - 1] == t
      ensures historySize > 0 ==> |r| <= historySize
    {
      LastN(h + [t], historySize)
    }

    method AppendAccepted(t: DetectedFingersAndThumbs)
      requires Valid() && Complete(t.coordinates)
      modifies this`history, this`cache
      ensures Valid()
      ensures |Trimmed(old(history), t)| < historySize ==> history == Trimmed(old(history), t) && cache == map[]
      ensures |Trimmed(old(history), t)| >= historySize ==>
                history == [] && IsBaseline(cache, old(ViewsOf(Trimmed(history, t))))
    {
      history := Trimmed(history, t);
      cache := map[];
      if |history| >= historySize {
        CalibrateFromHistory();
      }
    }

    /** The full-history branch of `append`: the baseline is computed and the history emptied. */
    method CalibrateFromHistory()
      requires history != [] && Complete(history[|history| - 1].coordinates)
      modifies this`history, this`cache
      ensures history == [] && IsBaseline(cache, old(ViewsOf(history)))
    {
      ghost var views := ViewsOf(history);
      forall f ensures |ValuesFor(views, f)| > 0 {
        ValuesForNonEmpty(views, f);
      }
      CalculateCalibrationValues();
      assert ViewsOf(history) == views;
      history := [];
    }

    /** `_calculate_calibration_values`: every finger's mean over the history, collected per
        finger in history order; nothing happens for an empty history. */
    method CalculateCalibrationValues()
      requires history != [] ==> forall f :: |ValuesFor(ViewsOf(history), f)| > 0
      modifies this`cache
      ensures history == old(history)
      ensures history == [] ==> cache == old(cache)
      ensures history != [] ==> IsBaseline(cache, ViewsOf(history))
    {
      if history == [] {
        return;
      }
      var views := ViewsOf(history);
      var distances := CollectDistances(views);
      var means := MeansOf(distances);
      cache := cache + means;
      assert ViewsOf(history) == views;
    }

    /** `get_calibration_for`: computes the cache first when it is empty and the history is
        full, which a valid strategy never needs, so nothing changes. */
    method GetCalibrationFor(f: Finger) returns (r: real)
      requires Valid()
      modifies this`cache
      ensures history == old(history) && cache == old(cache)
      ensures r == CalibrationFor(f)
    {
      if cache == map[] && |history| >= historySize {
        CalculateCalibrationValues();
      }
      r := BaselineOf(cache, f);
    }
  }

  /** After `historySize` accepted appends of one tracker the strategy is calibrated and every
      baseline is that tracker's current calibration value. */
  lemma RepeatedTrackerCalibration(views: seq<map<Finger, PointValue>>, v: map<Finger, PointValue>)
    requires views != [] && forall k :: 0 <= k < |views| ==> views[k] == v
    requires Complete(v)
    ensures forall f :: |ValuesFor(views, f)| > 0 && Mean(ValuesFor(views, f)) == CalibrationValue(v, f).value as real
  {
    forall f ensures |ValuesFor(views, f)| > 0 && Mean(ValuesFor(views, f)) == CalibrationValue(v, f).value as real {
      RepeatedStateBaseline(views, v, f);
    }
  }
}

=== FILE: detected_frame.dfy ===
/** The per-frame pipeline (`DetectedFrame`): detections are filtered into marker, finger and
    thumb boxes, the trackers are updated, the frame is classified, calibration is fed, the
    fingers that are down are found and mapped to keys, with a finger locked to its key for as
    long as it stays down. */
module Frame {
  import opened Types
  import opened BoxSort
  import opened DetectedObjects
  import opened Calibration
  import opened DownDetection
  import opened KeyboardLayout

  /** One detection of the model: its class, its confidence and its box (centre x, centre y,
      width, height). */
  datatype Detection = Detection(cls: int, conf: real, box: Box)

  const FingerClass: int := 0
  const ThumbClass: int := 1
  const MarkerClass: int := 2

  /** The history size the frame gives its calibration strategy. */
  const CalibrationHistorySize: nat := 100

  // ---------------------------------------------------------------------------------------
  // Filtering detections
  // ---------------------------------------------------------------------------------------

  /** The boxes of the detections of class `cls` whose confidence is strictly above
      `minConfidence`, in detection order. */
  function BoxesOf(ds: seq<Detection>, cls: int, minConfidence: real): (bs: seq<Box>)
    ensures |bs| <= |ds|
  {
    if ds == [] then []
    else
      BoxesOf(ds[..|ds| - 1], cls, minConfidence)
      + (if ds[|ds| - 1].cls == cls && ds[|ds| - 1].conf > minConfidence then [ds[|ds| - 1].box] else [])
  }

  /** Filtering distributes over concatenation, so the kept boxes keep their detection order. */
  lemma {:induction false} BoxesOfAppend(a: seq<Detection>, b: seq<Detection>, cls: int, minConfidence: real)
    ensures BoxesOf(a + b, cls, minConfidence) == BoxesOf(a, cls, minConfidence) + BoxesOf(b, cls, minConfidence)
    decreases |b|
  {
    if b == [] {
      assert a + b == a;
    } else {
      var b' := b[..|b| - 1];
      assert (a + b)[..|a + b| - 1] == a + b';
      BoxesOfAppend(a, b', cls, minConfidence);
    }
  }

  /** A box is kept exactly when some detection of the class, above the confidence, has it. */
  lemma {:induction false} BoxesOfMembership(ds: seq<Detection>, cls: int, minConfidence: real, b: Box)
    ensures b in BoxesOf(ds, cls, minConfidence) <==>
              exists i :: 0 <= i < |ds| && ds[i].box == b && ds[i].cls == cls && ds[i].conf > minConfidence
  {
    if ds != [] {
      var init := ds[..|ds| - 1];
      BoxesOfMembership(init, cls, minConfidence, b);
      KeptFromInit(ds, init, cls, minConfidence, b);
    }
  }

  /** One step of `BoxesOfMembership`: a witness among all the detections is one among `init`,
      all but the last, or the last. */
  lemma KeptFromInit(ds: seq<Detection>, init: seq<Detection>, cls: int, minConfidence: real, b: Box)
    requires ds != [] && init == ds[..|ds| - 1]
    ensures (exists i :: 0 <= i < |ds| && ds[i].box == b && ds[i].cls == cls && ds[i].conf > minConfidence) <==>
            (exists i :: 0 <= i < |init| && init[i].box == b && init[i].cls == cls && init[i].conf > minConfidence)
            || (ds[|ds| - 1].box == b && ds[|ds| - 1].cls == cls && ds[|ds| - 1].conf > minConfidence)
  {
    if exists i :: 0 <= i < |ds| && ds[i].box == b && ds[i].cls == cls && ds[i].conf > minConfidence {
      var i :| 0 <= i < |ds| && ds[i].box == b && ds[i].cls == cls && ds[i].conf > minConfidence;
      if i < |init| {
        assert init[i] == ds[i];
      }
    }
    if exists i :: 0 <= i < |init| && init[i].box == b && init[i].cls == cls && init[i].conf > minConfidence {
      var i :| 0 <= i < |init| && init[i].box == b && init[i].cls == cls && init[i].conf > minConfidence;
      assert ds[i] == init[i];
    }
  }

  /** A detection whose class is none of the three is dropped from all three lists. */
  lemma OtherClassesDropped(d: Detection, minConfidence: real)
    requires d.cls != FingerClass && d.cls != ThumbClass && d.cls != MarkerClass
    ensures BoxesOf([d], FingerClass, minConfidence) == []
    ensures BoxesOf([d], ThumbClass, minConfidence) == []
    ensures BoxesOf([d], MarkerClass, minConfidence) == []
  {
  }

  // ---------------------------------------------------------------------------------------
  // Down fingers
  // ---------------------------------------------------------------------------------------

  /** The identities of `fs` the detector finds down, in the order of `fs`. */
  function DownAmong(fs: seq<Finger>, s: Snapshot, cache: map<Finger, real>, sensitivity: real): (r: seq<Finger>)
    ensures |r| <= |fs|
    ensures forall i :: 0 <= i < |r| ==> r[i] in fs && IsDown(s, r[i], BaselineOf(cache, r[i]), sensitivity)
  {
    if fs == [] then []
    else
      var f := fs[|fs| - 1];
      DownAmong(fs[..|fs| - 1], s, cache, sensitivity)
      + (if IsDown(s, f, BaselineOf(cache, f), sensitivity) then [f] else [])
  }

  /** `_detect_down_fingers` with a calibrated strategy: the identities found down, in
      `Fingers` order, or none when more than four are found. */
  function DownFingers(s: Snapshot, cache: map<Finger, real>, sensitivity: real): (r: seq<Finger>)
    ensures |r| <= 4
    ensures forall i :: 0 <= i < |r| ==> IsDown(s, r[i], BaselineOf(cache, r[i]), sensitivity)
  {
    var found := DownAmong(Values(), s, cache, sensitivity);
    if |found| > 4 then [] else found
  }

  /** One more identity of `fs` is asked about: it joins the end exactly when it is down. */
  lemma DownAmongStep(fs: seq<Finger>, i: nat, s: Snapshot, cache: map<Finger, real>, sensitivity: real)
    requires i < |fs|
    ensures DownAmong(fs[..i + 1], s, cache, sensitivity) ==
            DownAmong(fs[..i], s, cache, sensitivity) +
            (if IsDown(s, fs[i], BaselineOf(cache, fs[i]), sensitivity) then [fs[i]] else [])
  {
    assert fs[..i + 1][..i] == fs[..i] && fs[..i + 1][i] == fs[i];
  }

  /** An identity is listed exactly when it belongs to `fs` and is down. */
  lemma {:induction false} DownAmongMembership(fs: seq<Finger>, s: Snapshot, cache: map<Finger, real>, sensitivity: real, g: Finger)
    ensures g in DownAmong(fs, s, cache, sensitivity) <==> g in fs && IsDown(s, g, BaselineOf(cache, g), sensitivity)
  {
    if fs != [] {
      var init := fs[..|fs| - 1];
      DownAmongMembership(init, s, cache, sensitivity, g);
      assert fs == init + [fs[|fs| - 1]];
    }
  }

  /** Since at most one identity is down in a state, a list without repetitions yields at
      most one down identity. */
  lemma {:induction false} DownAmongAtMostOne(fs: seq<Finger>, s: Snapshot, cache: map<Finger, real>, sensitivity: real)
    requires forall i, j :: 0 <= i < j < |fs| ==> fs[i] != fs[j]
    ensures |DownAmong(fs, s, cache, sensitivity)| <= 1
  {
    if fs != [] {
      var init := fs[..|fs| - 1];
      var f := fs[|fs| - 1];
      DownAmongAtMostOne(init, s, cache, sensitivity);
      var before := DownAmong(init, s, cache, sensitivity);
      if IsDown(s, f, BaselineOf(cache, f), sensitivity) && |before| == 1 {
        var g := before[0];
        DownAmongMembership(init, s, cache, sensitivity, g);
        AtMostOneDown(s, f, g, BaselineOf(cache, f), BaselineOf(cache, g), sensitivity);
        assert false;
      }
    }
  }

  /** The frame finds at most one finger down, so the cap of four never applies, and the
      fingers found are exactly those the detector reports down. */
  lemma DownFingersAtMostOne(s: Snapshot, cache: map<Finger, real>, sensitivity: real)
    ensures |DownFingers(s, cache, sensitivity)| <= 1
    ensures DownFingers(s, cache, sensitivity) == DownAmong(Values(), s, cache, sensitivity)
    ensures forall g :: g in DownFingers(s, cache, sensitivity) <==> IsDown(s, g, BaselineOf(cache, g), sensitivity)
  {
    var fs := Values();
    forall i, j | 0 <= i < j < |fs| ensures fs[i] != fs[j] {
      assert fs[i].Index() != fs[j].Index();
    }
    DownAmongAtMostOne(fs, s, cache, sensitivity);
    AllFingersListed(fs);
    forall g ensures g in DownFingers(s, cache, sensitivity) <==> IsDown(s, g, BaselineOf(cache, g), sensitivity) {
      DownAmongMembership(fs, s, cache, sensitivity, g);
    }
  }

  // ---------------------------------------------------------------------------------------
  // Mapping down fingers to keys
  // ---------------------------------------------------------------------------------------

  /** The marker corners the perspective transform reads, as points. */
  datatype Corners = Corners(bl: PointValue, tl: PointValue, br: PointValue, tr: PointValue)

  /** The perspective transform of the source's math module: a finger point, seen through
      the four marker corners, as fractional keyboard coordinates. */
  type Projection = (Corners, PointValue) -> (real, real)

  /** The corners of a marker tracker, or nothing when one is missing (the transform then
      raises). */
  function CornersOf(m: DetectedMarkers): (c: Option<Corners>)
    reads m
    requires m.Valid()
    ensures c.None? <==> m.AnyMarkersMissing()
  {
    var bl, tl, br, tr := m.BottomLeftMarker(), m.TopLeftMarker(), m.BottomRightMarker(), m.TopRightMarker();
    if bl.None? || tl.None? || br.None? || tr.None? then None
    else Some(Corners(bl.value, tl.value, br.value, tr.value))
  }

  /** The state of the key loop: the keys typed so far, the locks, and whether the transform
      raised. */
  datatype Mapping = Mapping(keys: seq<string>, locked: map<Finger, string>, failed: bool)

  /** One pass of the key loop for `f`: a locked finger repeats its key; a thumb types and
      locks a space; any other finger is projected onto the layout and types and locks the
      key's value, unless the key is a modifier. The projection fails without the finger's
      point or a corner. */
  function KeyStep(m: Mapping, f: Finger, points: map<Finger, PointValue>, corners: Option<Corners>,
                   layout: seq<Key>, project: Projection): (r: Mapping)
    ensures m.keys <= r.keys && |r.keys| <= |m.keys| + 1
    ensures forall g :: g in m.locked ==> g in r.locked && r.locked[g] == m.locked[g]
    ensures forall g :: g in r.locked ==> g in m.locked || g == f
    ensures r.failed ==> m.failed || (f !in m.locked && !f.IsThumb() && (f !in points || corners.None?))
    ensures f.IsThumb() && f !in m.locked ==> r.keys == m.keys + [" "]
  {
    if f in m.locked then m.(keys := m.keys + [m.locked[f]])
    else if f.IsThumb() then m.(keys := m.keys + [" "], locked := m.locked[f := " "])
    else if f !in points || corners.None? then m.(failed := true)
    else
      var xy := project(corners.value, points[f]);
      var key := KeyNameAt(layout, xy.0, xy.1);
      if IsModifierKey(key) then m
      else
        var value := GetKeyValue(key);
        m.(keys := m.keys + [value], locked := m.locked[f := value])
  }

  /** The key loop over `down`, starting from the locks `locked`; it stops at the first
      failure. */
  function MapKeys(down: seq<Finger>, locked: map<Finger, string>, points: map<Finger, PointValue>,
                   corners: Option<Corners>, layout: seq<Key>, project: Projection): (r: Mapping)
    ensures |r.keys| <= |down|
    ensures forall f :: f in locked ==> f in r.locked && r.locked[f] == locked[f]
  {
    if down == [] then Mapping([], locked, false)
    else
      var before := MapKeys(down[..|down| - 1], locked, points, corners, layout, project);
      if before.failed then before
      else KeyStep(before, down[|down| - 1], points, corners, layout, project)
  }

  /** The locks kept after the loop: those of fingers still down. */
  function Pruned(locked: map<Finger, string>, down: seq<Finger>): (r: map<Finger, string>)
    ensures forall f :: f in r <==> f in locked && f in down
    ensures forall f :: f in r ==> r[f] == locked[f]
  {
    map f | f in locked && f in down :: locked[f]
  }

  /** Once the loop has failed, the rest of the fingers change nothing. */
  lemma {:induction false} MapKeysStopsAtFailure(down: seq<Finger>, n: nat, locked: map<Finger, string>,
                                                 points: map<Finger, PointValue>, corners: Option<Corners>,
                                                 layout: seq<Key>, project: Projection)
    requires n <= |down| && MapKeys(down[..n], locked, points, corners, layout, project).failed
    ensures MapKeys(down, locked, points, corners, layout, project) == MapKeys(down[..n], locked, points, corners, layout, project)
    decreases |down| - n
  {
    if n < |down| {
      var init := down[..|down| - 1];
      assert init[..n] == down[..n];
      MapKeysStopsAtFailure(init, n, locked, points, corners, layout, project);
    } else {
      assert down[..n] == down;
    }
  }

  /** Each down finger types at most one key; existing locks are never changed; new locks are
      only for down fingers; and the loop fails only on a finger that is neither locked nor a
      thumb, for lack of its point or of a marker corner. */
  lemma {:induction false} MapKeysShape(down: seq<Finger>, locked: map<Finger, string>, points: map<Finger, PointValue>,
                                        corners: Option<Corners>, layout: seq<Key>, project: Projection)
    ensures var m := MapKeys(down, locked, points, corners, layout, project);
      && |m.keys| <= |down|
      && (forall f :: f in locked ==> f in m.locked && m.locked[f] == locked[f])
      && (forall f :: f in m.locked ==> f in locked || f in down)
      && (m.failed ==> exists i :: 0 <= i < |down| && down[i] !in locked && !down[i].IsThumb()
                                   && (down[i] !in points || corners.None?))
  {
    if down != [] {
      var init := down[..|down| - 1];
      var f := down[|down| - 1];
      MapKeysShape(init, locked, points, corners, layout, project);
      var before := MapKeys(init, locked, points, corners, layout, project);
      if before.failed {
        var i :| 0 <= i < |init| && init[i] !in locked && !init[i].IsThumb() && (init[i] !in points || corners.None?);
        assert down[i] == init[i];
      } else {
        var m := KeyStep(before, f, points, corners, layout, project);
        if m.failed {
          assert f !in before.locked;
          assert down[|down| - 1] == f;
        }
        forall g | g in m.locked ensures g in locked || g in down {
          if g != f {
            assert g in before.locked;
            if g !in locked {
              assert g in init;
              var j :| 0 <= j < |init| && init[j] == g;
              assert down[j] == g;
            }
          }
        }
      }
    }
  }

  /** A finger that is locked and down types its locked key again and keeps its lock. */
  lemma LockedFingerRepeatsKey(f: Finger, locked: map<Finger, string>, points: map<Finger, PointValue>,
                               corners: Option<Corners>, layout: seq<Key>, project: Projection)
    requires f in locked
    ensures MapKeys([f], locked, points, corners, layout, project) == Mapping([locked[f]], locked, false)
  {
    assert [f][..0] == [];
  }

  /** An unlocked thumb types a space and is locked to it, with or without markers. */
  lemma ThumbTypesSpace(f: Finger, locked: map<Finger, string>, points: map<Finger, PointValue>,
                        corners: Option<Corners>, layout: seq<Key>, project: Projection)
    requires f.IsThumb() && f !in locked
    ensures MapKeys([f], locked, points, corners, layout, project) == Mapping([" "], locked[f := " "], false)
  {
    assert [f][..0] == [];
  }

  /** An unlocked finger on a modifier key types nothing and is not locked. */
  lemma ModifierTypesNothing(f: Finger, locked: map<Finger, string>, points: map<Finger, PointValue>,
                             corners: Corners, layout: seq<Key>, project: Projection)
    requires !f.IsThumb() && f !in locked && f in points
    requires IsModifierKey(KeyNameAt(layout, project(corners, points[f]).0, project(corners, points[f]).1))
    ensures MapKeys([f], locked, points, Some(corners), layout, project) == Mapping([], locked, false)
  {
    assert [f][..0] == [];
  }

  /** Without its markers, the frame cannot map an unlocked finger that is not a thumb. */
  lemma MissingMarkersFail(f: Finger, locked: map<Finger, string>, points: map<Finger, PointValue>,
                           layout: seq<Key>, project: Projection)
    requires !f.IsThumb() && f !in locked
    ensures MapKeys([f], locked, points, None, layout, project).failed
  {
    assert [f][..0] == [];
  }

  // ---------------------------------------------------------------------------------------
  // Frame state
  // ---------------------------------------------------------------------------------------

  /** `_set_state` for `markerCount` marker corners (none without a marker tracker) and the
      finger tracker, if any: missing markers unless four corners are listed, then missing
      fingers unless eight fingers are tracked, missing thumbs unless two thumbs are;
      otherwise valid, which is exactly when calibration accepts the tracker. */
  function Classify(markerCount: nat, tracker: Option<Snapshot>): (st: FrameState)
    ensures st != Initializing
    ensures st == MissingMarkers <==> markerCount != 4
    ensures st == MissingFingers <==>
              markerCount == 4 && (tracker.None? || |FingerCoordinates(tracker.value)| != 8)
    ensures st == MissingThumbs <==>
              markerCount == 4 && tracker.Some? && |FingerCoordinates(tracker.value)| == 8
              && |ThumbCoordinates(tracker.value)| != 2
    ensures st == FrameState.Valid <==> markerCount == 4 && tracker.Some? && Accepts(tracker.value)
  {
    if markerCount != 4 then MissingMarkers
    else if tracker.None? || |FingerCoordinates(tracker.value)| != 8 then MissingFingers
    else if |ThumbCoordinates(tracker.value)| != 2 then MissingThumbs
    else FrameState.Valid
  }

  // ---------------------------------------------------------------------------------------
  // Calibration through the frame
  // ---------------------------------------------------------------------------------------

  /** Every finger's baseline is its calibration value in `points`. */
  ghost predicate BaselinesFrom(cache: map<Finger, real>, points: map<Finger, PointValue>)
  {
    forall f :: f in cache && CalibrationValue(points, f).Some? && cache[f] == CalibrationValue(points, f).value as real
  }

  /** A history that holds nothing but the tracker `t` (appended again and again) has views
      that all equal the tracker's current state, so its baseline is that state's. */
  lemma AliasedHistoryBaseline(h: seq<DetectedFingersAndThumbs>, t: DetectedFingersAndThumbs, cache: map<Finger, real>)
    requires h != [] && forall k :: 0 <= k < |h| ==> h[k] == t
    requires Complete(t.coordinates) && IsBaseline(cache, ViewsOf(h))
    ensures BaselinesFrom(cache, t.coordinates)
  {
    var views := ViewsOf(h);
    RepeatedTrackerCalibration(views, t.coordinates);
  }

  /** What `_handle_calibration` does, from the calibrating flag and the strategy's history and
      cache before it (`calibrating0`, `h0`, `c0`) to those after it: outside calibration or on an
      invalid frame nothing changes; otherwise the tracker joins the history and the cache is
      cleared, unless the history is then full: the strategy calibrates to the tracker's
      current distances, calibration ends and the callback runs. */
  ghost predicate CalibrationFed(calibrating0: bool, valid: bool, h0: seq<DetectedFingersAndThumbs>, c0: map<Finger, real>,
                                 tracker: DetectedFingersAndThumbs, calibrating: bool,
                                 h: seq<DetectedFingersAndThumbs>, c: map<Finger, real>,
                                 callback: Option<nat>, invoked: Option<nat>)
    reads tracker
  {
    && (!(calibrating0 && valid) ==> h == h0 && c == c0 && calibrating == calibrating0 && invoked == None)
    && (calibrating0 && valid && |h0| + 1 < CalibrationHistorySize ==>
          h == h0 + [tracker] && c == map[] && calibrating && invoked == None)
    && (calibrating0 && valid && |h0| + 1 == CalibrationHistorySize ==>
          h == [] && BaselinesFrom(c, tracker.coordinates) && !calibrating && invoked == callback)
  }

  /** What `_detect_down_fingers` does: nothing without a calibration (an empty cache), else the
      down fingers are found afresh. */
  ghost predicate DownFound(down0: seq<Finger>, down: seq<Finger>, s: Snapshot, cache: map<Finger, real>, sensitivity: real)
  {
    && (cache == map[] ==> down == down0)
    && (cache != map[] ==> down == DownFingers(s, cache, sensitivity))
  }

  /** What `_map_down_fingers_to_keys` does: the key loop's keys; its locks, pruned to the down
      fingers when it completes. */
  ghost predicate KeysMapped(down: seq<Finger>, locked0: map<Finger, string>, points: map<Finger, PointValue>,
                             corners: Option<Corners>, layout: seq<Key>, project: Projection,
                             ok: bool, keys: seq<string>, locked: map<Finger, string>)
  {
    var m := MapKeys(down, locked0, points, corners, layout, project);
    && ok == !m.failed && keys == m.keys
    && locked == (if ok then Pruned(m.locked, down) else m.locked)
  }

  // ---------------------------------------------------------------------------------------
  // The frame
  // ---------------------------------------------------------------------------------------

  class DetectedFrame {
    const markersMinConfidence: real
    const fingersMinConfidence: real
    const thumbsMinConfidence: real
    const calibration: AdjacentNeighborCalibration
    const downDetector: FingerDownDetector
    /** The keyboard layout's keys, laid out in fractional keyboard coordinates. */
    const layout: seq<Key>
    const widthCorrection: WidthCorrection
    const project: Projection

    var isCalibrating: bool
    /** The callback to run when calibration completes, as a handle. */
    var onCalibrationComplete: Option<nat>
    var markers: DetectedMarkers?
    var fingers: DetectedFingersAndThumbs?
    var downFingers: seq<Finger>
    var downKeys: seq<string>
    var lockedKeys: map<Finger, string>
    var state: FrameState

    /** The detector reads the frame's strategy; every history entry is the frame's own
        finger tracker; at most one finger is down, and every down finger that is not a thumb
        is tracked. */
    ghost predicate Valid()
      reads this`markers, this`fingers, this`downFingers, calibration, markers, fingers
    {
      && calibration.Valid() && calibration.historySize == CalibrationHistorySize
      && downDetector.calibration == calibration
      && (markers != null ==> markers.Valid() && markers.correctedWidth == widthCorrection)
      && (fingers != null ==> fingers.Valid())
      && (forall k :: 0 <= k < |calibration.history| ==> calibration.history[k] == fingers)
      && |downFingers| <= 1
      && (forall f :: f in downFingers && !f.IsThumb() ==> fingers != null && f in fingers.coordinates)
    }

    /** The fields the constructor sets before its first update. */
    constructor (markersMinConfidence: real, fingersMinConfidence: real, thumbsMinConfidence: real,
                 keyDownSensitivity: real, layout: seq<Key>, widthCorrection: WidthCorrection, project: Projection)
      ensures Valid()
      ensures this.markersMinConfidence == markersMinConfidence && this.fingersMinConfidence == fingersMinConfidence
      ensures this.thumbsMinConfidence == thumbsMinConfidence && downDetector.sensitivity == keyDownSensitivity
      ensures this.layout == layout && this.widthCorrection == widthCorrection && this.project == project
      ensures calibration.history == [] && calibration.cache == map[]
      ensures !isCalibrating && onCalibrationComplete.None? && markers == null && fingers == null
      ensures downFingers == [] && downKeys == [] && lockedKeys == map[] && state == Initializing
    {
      this.markersMinConfidence := markersMinConfidence;
      this.fingersMinConfidence := fingersMinConfidence;
      this.thumbsMinConfidence := thumbsMinConfidence;
      var strategy := new AdjacentNeighborCalibration(CalibrationHistorySize);
      calibration := strategy;
      downDetector := new FingerDownDetector(strategy, keyDownSensitivity);
      this.layout := layout;
      this.widthCorrection := widthCorrection;
      this.project := project;
      isCalibrating := false;
      onCalibrationComplete := None;
      markers := null;
      fingers := null;
      downFingers := [];
      downKeys := [];
      lockedKeys := map[];
      state := Initializing;
    }

    /** `requires_calibration`. */
    function RequiresCalibration(): (r: bool)
      reads this, calibration
      ensures r <==> calibration.cache == map[]
    {
      !calibration.IsCalibrated()
    }

    /** `calibration_progress`: the strategy's; 1 exactly when calibrated. */
    function CalibrationProgress(): (p: real)
      reads this, calibration, markers, fingers
      requires Valid()
      ensures 0.0 <= p <= 1.0 && (p == 1.0 <==> !RequiresCalibration())
      ensures RequiresCalibration() ==> p * 100.0 == |calibration.history| as real
    {
      calibration.CalibrationProgress().value
    }

    /** `marker_coordinates`: nothing before the first update, then the four corners. */
    function MarkerCoordinates(): (cs: seq<Option<PointValue>>)
      reads this, markers
      requires markers != null ==> markers.Valid()
      ensures markers == null ==> cs == []
      ensures markers != null ==> |cs| == 4 && (markers.AnyMarkersMissing() <==> exists i :: 0 <= i < 4 && cs[i].None?)
    {
      if markers == null then [] else markers.AllMarkerCoordinates()
    }

    /** `update`: filter the detections, update the trackers, classify the frame, feed
        calibration, find the down fingers and map them to keys. `ok` is false when the key
        mapping raised, which can only happen without marker corners; `invoked` is the
        callback run because calibration completed in this frame. */
    method Update(detections: seq<Detection>) returns (ok: bool, invoked: Option<nat>)
      requires Valid()
      modifies this, calibration, markers, fingers
      ensures Valid() && markers != null && fingers != null
      ensures old(markers) != null ==> markers == old(markers)
      ensures old(fingers) != null ==> fingers == old(fingers)
      ensures markers.rawBoxes == SortByX(BoxesOf(detections, MarkerClass, markersMinConfidence))
      ensures fingers.rawFingerBoxes == SortByX(BoxesOf(detections, FingerClass, fingersMinConfidence))
      ensures fingers.rawThumbBoxes == SortByX(BoxesOf(detections, ThumbClass, thumbsMinConfidence))
      ensures markers.Follows(if old(markers) == null then UnsetMarkers else old(markers.Fields()))
      ensures fingers.Follows(if old(fingers) == null then map[] else old(fingers.coordinates))
      ensures state != MissingMarkers && state != Initializing
      ensures state == FrameState.Valid <==> Accepts(fingers.AsSnapshot())
      ensures CalibrationFed(old(isCalibrating), state == FrameState.Valid, old(calibration.history), old(calibration.cache),
                             fingers, isCalibrating, calibration.history, calibration.cache,
                             old(onCalibrationComplete), invoked)
      ensures onCalibrationComplete == old(onCalibrationComplete)
      ensures DownFound(old(downFingers), downFingers, fingers.AsSnapshot(), calibration.cache, downDetector.sensitivity)
      ensures KeysMapped(downFingers, old(lockedKeys), fingers.coordinates, CornersOf(markers), layout, project,
                         ok, downKeys, lockedKeys)
      ensures ok ==> forall f :: f in lockedKeys ==> f in downFingers
      ensures !ok ==> markers.AnyMarkersMissing()
    {
      CalculateCoordinates(detections);
      ok, invoked := Respond();
    }

    /** The rest of `update` once the trackers are updated and the frame classified:
        calibration, down fingers, keys. */
    method Respond() returns (ok: bool, invoked: Option<nat>)
      requires Valid() && markers != null && fingers != null
      modifies this, calibration
      ensures Valid()
      ensures markers == old(markers) && fingers == old(fingers)
      ensures state != MissingMarkers && state != Initializing
      ensures state == FrameState.Valid <==> Accepts(fingers.AsSnapshot())
      ensures CalibrationFed(old(isCalibrating), state == FrameState.Valid, old(calibration.history), old(calibration.cache),
                             fingers, isCalibrating, calibration.history, calibration.cache,
                             old(onCalibrationComplete), invoked)
      ensures onCalibrationComplete == old(onCalibrationComplete)
      ensures DownFound(old(downFingers), downFingers, fingers.AsSnapshot(), calibration.cache, downDetector.sensitivity)
      ensures KeysMapped(downFingers, old(lockedKeys), fingers.coordinates, CornersOf(markers), layout, project,
                         ok, downKeys, lockedKeys)
      ensures ok ==> forall f :: f in lockedKeys ==> f in downFingers
      ensures !ok ==> markers.AnyMarkersMissing()
    {
      SetState();
      ok, invoked := React();
    }

    /** `_set_state` once both trackers exist: never missing markers, and valid exactly when
        calibration accepts the finger tracker. */
    method SetState()
      requires Valid() && markers != null && fingers != null
      modifies this
      ensures markers == old(markers) && fingers == old(fingers) && isCalibrating == old(isCalibrating)
      ensures Valid()
      ensures state == Classify(|markers.AllMarkerCoordinates()|, Some(fingers.AsSnapshot()))
      ensures state != MissingMarkers && state != Initializing
      ensures state == FrameState.Valid <==> Accepts(fingers.AsSnapshot())
      ensures onCalibrationComplete == old(onCalibrationComplete)
      ensures downFingers == old(downFingers) && downKeys == old(downKeys) && lockedKeys == old(lockedKeys)
    {
      var snapshot := fingers.AsSnapshot();
      var st := Classify(|markers.AllMarkerCoordinates()|, Some(snapshot));
      assert st == FrameState.Valid <==> Accepts(snapshot);
      state := st;
    }

    method React() returns (ok: bool, invoked: Option<nat>)
      requires Valid() && markers != null && fingers != null
      requires state == FrameState.Valid <==> Accepts(fingers.AsSnapshot())
      modifies this, calibration
      ensures Valid()
      ensures markers == old(markers) && fingers == old(fingers) && state == old(state)
      ensures CalibrationFed(old(isCalibrating), state == FrameState.Valid, old(calibration.history), old(calibration.cache),
                             fingers, isCalibrating, calibration.history, calibration.cache,
                             old(onCalibrationComplete), invoked)
      ensures onCalibrationComplete == old(onCalibrationComplete)
      ensures DownFound(old(downFingers), downFingers, fingers.AsSnapshot(), calibration.cache, downDetector.sensitivity)
      ensures KeysMapped(downFingers, old(lockedKeys), fingers.coordinates, CornersOf(markers), layout, project,
                         ok, downKeys, lockedKeys)
      ensures ok ==> forall f :: f in lockedKeys ==> f in downFingers
      ensures !ok ==> markers.AnyMarkersMissing()
    {
      invoked := HandleCalibration();
      ok := DetectKeys();
    }

    /** The last two steps of `update`: the down fingers are found, then mapped to keys. */
    method DetectKeys() returns (ok: bool)
      requires Valid() && markers != null && fingers != null
      modifies this, calibration
      ensures markers == old(markers) && fingers == old(fingers) && state == old(state)
      ensures isCalibrating == old(isCalibrating) && onCalibrationComplete == old(onCalibrationComplete)
      ensures calibration.history == old(calibration.history) && calibration.cache == old(calibration.cache)
      ensures Valid()
      ensures DownFound(old(downFingers), downFingers, fingers.AsSnapshot(), calibration.cache, downDetector.sensitivity)
      ensures KeysMapped(downFingers, old(lockedKeys), fingers.coordinates, CornersOf(markers), layout, project,
                         ok, downKeys, lockedKeys)
      ensures ok ==> forall f :: f in lockedKeys ==> f in downFingers
      ensures !ok ==> markers.AnyMarkersMissing()
    {
      DetectDownFingers();
      ok := MapDownFingersToKeys();
    }

    /** `start_calibration`. */
    method StartCalibration(callback: Option<nat>)
      modifies this
      ensures isCalibrating && onCalibrationComplete == callback
      ensures markers == old(markers) && fingers == old(fingers) && state == old(state)
      ensures downFingers == old(downFingers) && downKeys == old(downKeys) && lockedKeys == old(lockedKeys)
    {
      isCalibrating := true;
      onCalibrationComplete := callback;
    }

    /** `_calculate_coordinates`: markers, fingers and thumbs are the boxes of classes 2, 0
        and 1 above their minimum confidences, in detection order; the trackers are updated
        with them. */
    method CalculateCoordinates(detections: seq<Detection>)
      requires Valid()
      modifies this, markers, fingers
      ensures Valid() && markers != null && fingers != null
      ensures old(markers) != null ==> markers == old(markers)
      ensures old(fingers) != null ==> fingers == old(fingers)
      ensures markers.rawBoxes == SortByX(BoxesOf(detections, MarkerClass, markersMinConfidence))
      ensures fingers.rawFingerBoxes == SortByX(BoxesOf(detections, FingerClass, fingersMinConfidence))
      ensures fingers.rawThumbBoxes == SortByX(BoxesOf(detections, ThumbClass, thumbsMinConfidence))
      ensures markers.Follows(if old(markers) == null then UnsetMarkers else old(markers.Fields()))
      ensures fingers.Follows(if old(fingers) == null then map[] else old(fingers.coordinates))
      ensures calibration.history == old(calibration.history) && calibration.cache == old(calibration.cache)
      ensures state == old(state) && isCalibrating == old(isCalibrating)
      ensures onCalibrationComplete == old(onCalibrationComplete)
      ensures downFingers == old(downFingers) && downKeys == old(downKeys) && lockedKeys == old(lockedKeys)
    {
      var markerBoxes := BoxesOf(detections, MarkerClass, markersMinConfidence);
      var fingerBoxes := BoxesOf(detections, FingerClass, fingersMinConfidence);
      var thumbBoxes := BoxesOf(detections, ThumbClass, thumbsMinConfidence);
      UpdateMarkers(markerBoxes);
      UpdateFingersAndThumbs(fingerBoxes, thumbBoxes);
    }

    /** `_update_markers`: the first frame creates the marker tracker, later frames update it. */
    method UpdateMarkers(boxes: seq<Box>)
      requires markers != null ==> markers.Valid() && markers.correctedWidth == widthCorrection
      modifies this, markers
      ensures markers != null && markers.Valid() && markers.correctedWidth == widthCorrection
      ensures markers.rawBoxes == SortByX(boxes)
      ensures markers.Follows(if old(markers) == null then UnsetMarkers else old(markers.Fields()))
      ensures old(markers) == null ==> fresh(markers)
      ensures old(markers) != null ==> markers == old(markers)
      ensures fingers == old(fingers) && state == old(state) && isCalibrating == old(isCalibrating)
      ensures onCalibrationComplete == old(onCalibrationComplete)
      ensures downFingers == old(downFingers) && downKeys == old(downKeys) && lockedKeys == old(lockedKeys)
    {
      if markers == null {
        var created := new DetectedMarkers(boxes, widthCorrection);
        markers := created;
      } else {
        ghost var before := markers.Fields();
        markers.Update(boxes);
        assert markers.Follows(before);
      }
    }

    /** `_update_fingers_and_thumbs`: the first frame creates the finger tracker, later frames
        update it; either way every identity is placed from the sorted boxes. */
    method UpdateFingersAndThumbs(fingerBoxes: seq<Box>, thumbBoxes: seq<Box>)
      requires fingers != null ==> fingers.Valid()
      modifies this, fingers
      ensures fingers != null && fingers.Valid()
      ensures fingers.rawFingerBoxes == SortByX(fingerBoxes) && fingers.rawThumbBoxes == SortByX(thumbBoxes)
      ensures fingers.Follows(if old(fingers) == null then map[] else old(fingers.coordinates))
      ensures old(fingers) == null ==>
                && fresh(fingers)
                && forall f :: Lookup(fingers.coordinates, f) == Identified(None, fingers.rawFingerBoxes, fingers.rawThumbBoxes, f)
      ensures old(fingers) != null ==>
                && fingers == old(fingers)
                && forall f :: Lookup(fingers.coordinates, f) ==
                     Identified(Lookup(old(fingers.coordinates), f), fingers.rawFingerBoxes, fingers.rawThumbBoxes, f)
      ensures old(fingers) != null ==> forall f :: f in old(fingers.coordinates) && !f.IsThumb() ==> f in fingers.coordinates
      ensures markers == old(markers) && state == old(state) && isCalibrating == old(isCalibrating)
      ensures onCalibrationComplete == old(onCalibrationComplete)
      ensures downFingers == old(downFingers) && downKeys == old(downKeys) && lockedKeys == old(lockedKeys)
    {
      if fingers == null {
        fingers := new DetectedFingersAndThumbs(fingerBoxes, thumbBoxes);
      } else {
        ghost var before := fingers.coordinates;
        fingers.Update(fingerBoxes, thumbBoxes);
        forall f | f in before && !f.IsThumb() ensures f in fingers.coordinates {
          assert Lookup(before, f).Some?;
          assert Lookup(fingers.coordinates, f).Some?;
        }
      }
    }

    /** `_handle_calibration`: while calibrating, a valid frame's tracker joins the history; the
        hundredth completes calibration, which ends it and runs the callback, if any. As every
        history entry is this frame's tracker, each baseline is then the distance the current
        frame shows. */
    method HandleCalibration() returns (invoked: Option<nat>)
      requires Valid() && fingers != null
      requires state == FrameState.Valid ==> Accepts(fingers.AsSnapshot())
      modifies this, calibration
      ensures markers == old(markers) && fingers == old(fingers) && state == old(state)
      ensures onCalibrationComplete == old(onCalibrationComplete)
      ensures downFingers == old(downFingers) && downKeys == old(downKeys) && lockedKeys == old(lockedKeys)
      ensures Valid()
      ensures CalibrationFed(old(isCalibrating), state == FrameState.Valid, old(calibration.history), old(calibration.cache),
                             fingers, isCalibrating, calibration.history, calibration.cache,
                             old(onCalibrationComplete), invoked)
    {
      invoked := None;
      if isCalibrating && state == FrameState.Valid {
        var completed := FeedCalibration(fingers);
        if completed {
          isCalibrating := false;
          if onCalibrationComplete.Some? {
            invoked := onCalibrationComplete;
          }
        }
      }
    }

    /** The append of `_handle_calibration` for the frame's own tracker, which every history
        entry already is: below the history size the tracker is appended and the cache
        cleared; at it, the strategy calibrates to the tracker's current distances. */
    method FeedCalibration(tracker: DetectedFingersAndThumbs) returns (completed: bool)
      requires calibration.Valid() && calibration.historySize == CalibrationHistorySize
      requires tracker.Valid() && Accepts(tracker.AsSnapshot())
      requires forall k :: 0 <= k < |calibration.history| ==> calibration.history[k] == tracker
      modifies calibration
      ensures calibration.Valid()
      ensures completed == calibration.IsCalibrated()
      ensures completed <==> |old(calibration.history)| + 1 == CalibrationHistorySize
      ensures !completed ==> calibration.history == old(calibration.history) + [tracker] && calibration.cache == map[]
      ensures completed ==> calibration.history == [] && BaselinesFrom(calibration.cache, tracker.coordinates)
    {
      AcceptsIffComplete(tracker.AsSnapshot());
      ghost var trimmed := calibration.Trimmed(calibration.history, tracker);
      assert trimmed == calibration.history + [tracker];
      ghost var views := ViewsOf(trimmed);
      forall k | 0 <= k < |views| ensures views[k] == tracker.coordinates {
        assert trimmed[k] == tracker;
      }
      calibration.Append(tracker);
      if |trimmed| == CalibrationHistorySize {
        assert LeftPinky in calibration.cache;
      }
      completed := calibration.IsCalibrated();
      if completed {
        RepeatedTrackerCalibration(views, tracker.coordinates);
      }
    }

    /** `_detect_down_fingers`: while calibration is required the down fingers stay as they
        were; otherwise they are found afresh, and every finger found is tracked. */
    method DetectDownFingers()
      requires Valid() && fingers != null
      modifies this, calibration
      ensures markers == old(markers) && fingers == old(fingers) && state == old(state)
      ensures isCalibrating == old(isCalibrating) && onCalibrationComplete == old(onCalibrationComplete)
      ensures downKeys == old(downKeys) && lockedKeys == old(lockedKeys)
      ensures calibration.history == old(calibration.history) && calibration.cache == old(calibration.cache)
      ensures Valid()
      ensures DownFound(old(downFingers), downFingers, fingers.AsSnapshot(), calibration.cache, downDetector.sensitivity)
    {
      if RequiresCalibration() {
        return;
      }
      var found := FindDownFingers(fingers);
      downFingers := if |found| > 4 then [] else found;
      DownFingersAtMostOne(fingers.AsSnapshot(), calibration.cache, downDetector.sensitivity);
    }

    /** The loop of `_detect_down_fingers`: the detector is asked about every identity, in
        `Fingers` order. */
    method FindDownFingers(tracker: DetectedFingersAndThumbs) returns (found: seq<Finger>)
      requires calibration.Valid() && downDetector.calibration == calibration && tracker.Valid()
      modifies calibration
      ensures calibration.history == old(calibration.history) && calibration.cache == old(calibration.cache)
      ensures found == DownAmong(Values(), tracker.AsSnapshot(), calibration.cache, downDetector.sensitivity)
    {
      var fs := Values();
      ghost var s := tracker.AsSnapshot();
      ghost var cache := calibration.cache;
      found := [];
      var i := 0;
      while i < |fs|
        invariant 0 <= i <= |fs|
        invariant calibration.history == old(calibration.history) && calibration.cache == cache
        invariant found == DownAmong(fs[..i], s, cache, downDetector.sensitivity)
      {
        var down := downDetector.IsFingerDown(tracker, fs[i]);
        DownAmongStep(fs, i, s, cache, downDetector.sensitivity);
        if down {
          found := found + [fs[i]];
        }
        i := i + 1;
      }
      assert fs[..|fs|] == fs;
    }

    /** `_map_down_fingers_to_keys`: the key loop over the down fingers from the current locks;
        when it completes, only the locks of fingers still down are kept. When the transform
        raises, the keys and locks stay as the loop left them. Since every down finger that
        is not a thumb is tracked, that happens only without marker corners. */
    method MapDownFingersToKeys() returns (ok: bool)
      requires markers != null && markers.Valid() && fingers != null
      requires forall f :: f in downFingers && !f.IsThumb() ==> f in fingers.coordinates
      modifies this
      ensures markers == old(markers) && fingers == old(fingers) && state == old(state)
      ensures isCalibrating == old(isCalibrating) && onCalibrationComplete == old(onCalibrationComplete)
      ensures downFingers == old(downFingers)
      ensures KeysMapped(downFingers, old(lockedKeys), fingers.coordinates, CornersOf(markers), layout, project,
                         ok, downKeys, lockedKeys)
      ensures !ok ==> markers.AnyMarkersMissing()
    {
      var m := KeyLoop(downFingers, lockedKeys, fingers.coordinates, CornersOf(markers));
      downKeys := m.keys;
      if m.failed {
        lockedKeys := m.locked;
        MapKeysShape(downFingers, old(lockedKeys), fingers.coordinates, CornersOf(markers), layout, project);
        return false;
      }
      lockedKeys := Pruned(m.locked, downFingers);
      return true;
    }

    /** The loop of `_map_down_fingers_to_keys`, which stops when the transform raises. */
    method KeyLoop(down: seq<Finger>, locked0: map<Finger, string>, points: map<Finger, PointValue>,
                   corners: Option<Corners>) returns (m: Mapping)
      ensures m == MapKeys(down, locked0, points, corners, layout, project)
    {
      var keys: seq<string> := [];
      var locked := locked0;
      var i := 0;
      while i < |down|
        invariant 0 <= i <= |down|
        invariant MapKeys(down[..i], locked0, points, corners, layout, project) == Mapping(keys, locked, false)
      {
        assert down[..i + 1][..i] == down[..i];
        var failed;
        keys, locked, failed := KeyFor(down[i], keys, locked, points, corners);
        if failed {
          MapKeysStopsAtFailure(down, i + 1, locked0, points, corners, layout, project);
          return Mapping(keys, locked, true);
        }
        i := i + 1;
      }
      assert down[..|down|] == down;
      return Mapping(keys, locked, false);
    }

    /** One pass of the loop for the finger `f`: a locked finger repeats its key, a thumb types a
        space, any other finger is projected and types its key unless it is a modifier; the
        projection raises without the finger's point or the corners. */
    method KeyFor(f: Finger, keys0: seq<string>, locked0: map<Finger, string>, points: map<Finger, PointValue>,
                  corners: Option<Corners>) returns (keys: seq<string>, locked: map<Finger, string>, failed: bool)
      ensures Mapping(keys, locked, failed) == KeyStep(Mapping(keys0, locked0, false), f, points, corners, layout, project)
    {
      keys, locked, failed := keys0, locked0, false;
      if f in locked {
        keys := keys + [locked[f]];
      } else if f.IsThumb() {
        keys := keys + [" "];
        locked := locked[f := " "];
      } else if f !in points || corners.None? {
        failed := true;
      } else {
        var xy := project(corners.value, points[f]);
        var key := ConvertCoordinatesToKey(layout, xy.0, xy.1);
        if !IsModifierKey(key) {
          var value := GetKeyValue(key);
          keys := keys + [value];
          locked := locked[f := value];
        }
      }
    }
  }
}

=== FILE: detected_objects.dfy ===
/** The marker and finger/thumb trackers: detection boxes sorted by x and assigned
    to the four keyboard corners and to the ten finger identities by position. */
module DetectedObjects {
  import opened Types
  import opened BoxSort

  // ---------------------------------------------------------------------------
  // Tracker snapshots (the values handed to calibration and down detection)
  // ---------------------------------------------------------------------------

  /** The finger/thumb tracker as a value: the point of every identity that has one,
      and the current raw finger boxes sorted by x. */
  datatype Snapshot = Snapshot(points: map<Finger, PointValue>, fingerBoxes: seq<Box>)
  {
    predicate WellFormed()
    {
      forall f :: f in points ==> points[f].Valid()
    }
  }

  function Lookup(m: map<Finger, PointValue>, f: Finger): Option<PointValue>
  {
    if f in m then Some(m[f]) else None
  }

  /** The non-thumb identities in the order `finger_coordinates` lists them. */
  const FingerOrder: seq<Finger> :=
    [LeftPinky, LeftRing, LeftMiddle, LeftIndex, RightIndex, RightMiddle, RightRing, RightPinky]

  /** The thumbs in the order `thumb_coordinates` lists them. */
  const ThumbOrder: seq<Finger> := [LeftThumb, RightThumb]

  lemma OrdersPartitionFingers(f: Finger)
    ensures f in FingerOrder <==> !f.IsThumb()
    ensures f in ThumbOrder <==> f.IsThumb()
  {
  }

  /** The points of the identities of `order` that have one, in the order of `order`. */
  function PresentPoints(m: map<Finger, PointValue>, order: seq<Finger>): (r: seq<PointValue>)
    ensures |r| <= |order|
    ensures |r| == |order| <==> forall f :: f in order ==> f in m
  {
    if order == [] then []
    else
      var rest := PresentPoints(m, order[1..]);
      assert forall f :: f in order <==> f == order[0] || f in order[1..];
      (if order[0] in m then [m[order[0]]] else []) + rest
  }

  /** `finger_coordinates`: the present non-thumb points, left pinky to right pinky. */
  function FingerCoordinates(s: Snapshot): (r: seq<PointValue>)
    ensures |r| <= 8
    ensures |r| == 8 <==> forall f: Finger :: !f.IsThumb() ==> f in s.points
  {
    assert forall f :: f in FingerOrder <==> !f.IsThumb();
    PresentPoints(s.points, FingerOrder)
  }

  /** `thumb_coordinates`: the present thumb points, left first. */
  function ThumbCoordinates(s: Snapshot): (r: seq<PointValue>)
    ensures |r| <= 2
    ensures |r| == 2 <==> LeftThumb in s.points && RightThumb in s.points
  {
    PresentPoints(s.points, ThumbOrder)
  }

  /** Eight finger points and two thumb points are present exactly when all ten identities are. */
  lemma CompleteIffAllTen(s: Snapshot)
    ensures |FingerCoordinates(s)| == 8 && |ThumbCoordinates(s)| == 2 <==> forall f :: f in s.points
  {
    if |FingerCoordinates(s)| == 8 && |ThumbCoordinates(s)| == 2 {
      forall f ensures f in s.points {
        if f.IsThumb() {
          assert f == LeftThumb || f == RightThumb;
        }
      }
    }
  }

  function SumHeights(bs: seq<Box>): real
  {
    if bs == [] then 0.0 else bs[0].h + SumHeights(bs[1..])
  }

  function SumWidths(bs: seq<Box>): real
  {
    if bs == [] then 0.0 else bs[0].w + SumWidths(bs[1..])
  }

  /** `average_finger_height`: the mean height of the raw finger boxes, 0 when there are none. */
  function AverageFingerHeight(s: Snapshot): (a: real)
    ensures |s.fingerBoxes| == 0 ==> a == 0.0
    ensures |s.fingerBoxes| > 0 ==> a * |s.fingerBoxes| as real == SumHeights(s.fingerBoxes)
  {
    if |s.fingerBoxes| == 0 then 0.0 else SumHeights(s.fingerBoxes) / |s.fingerBoxes| as real
  }

  /** `average_finger_width`: the mean width of the raw finger boxes; `None` without boxes,
      where the source's division raises `ZeroDivisionError`. */
  function AverageFingerWidth(s: Snapshot): (a: Option<real>)
    ensures a.None? <==> |s.fingerBoxes| == 0
    ensures a.Some? ==> a.value * |s.fingerBoxes| as real == SumWidths(s.fingerBoxes)
  {
    if |s.fingerBoxes| == 0 then None else Some(SumWidths(s.fingerBoxes) / |s.fingerBoxes| as real)
  }

  lemma {:induction false} SumHeightsNonNegative(bs: seq<Box>)
    requires forall i :: 0 <= i < |bs| ==> bs[i].h >= 0.0
    ensures SumHeights(bs) >= 0.0
  {
    if bs != [] {
      SumHeightsNonNegative(bs[1..]);
    }
  }

  /** The average finger height of the finger fixture of the unit tests is 80. */
  lemma AverageHeightExample()
    ensures AverageFingerHeight(Snapshot(map[], [
      Box(0.0, 0.0, 10.0, 10.0), Box(20.0, 20.0, 30.0, 30.0), Box(40.0, 40.0, 50.0, 50.0),
      Box(60.0, 60.0, 70.0, 70.0), Box(80.0, 80.0, 90.0, 90.0), Box(100.0, 100.0, 110.0, 110.0),
      Box(120.0, 120.0, 130.0, 130.0), Box(140.0, 140.0, 150.0, 150.0)])) == 80.0
  {
  }

  // ---------------------------------------------------------------------------
  // Positional identity assignment
  // ---------------------------------------------------------------------------

  /** The sorted finger box an identity reads: its index below 5, else its index minus 2.
      The loop covers all ten identities, so the thumbs read boxes 4 and 3. */
  function Slot(f: Finger): (k: nat)
    ensures k < 8
  {
    if f.Index() < 5 then f.Index() else f.Index() - 2
  }

  /** The identities with distinct slots are exactly the non-thumb ones; each thumb shares
      its slot with the index finger of the other hand. */
  lemma SlotsOfFingers()
    ensures forall f: Finger, g: Finger :: !f.IsThumb() && !g.IsThumb() && f != g ==> Slot(f) != Slot(g)
    ensures Slot(LeftThumb) == Slot(RightIndex) == 4
    ensures Slot(RightThumb) == Slot(LeftIndex) == 3
  {
  }

  /** A new sample for a point that may already exist: the existing point is updated, keeping
      its history, otherwise a fresh point is made. */
  function Observe(prev: Option<PointValue>, x: real, y: real): (p: PointValue)
    requires prev.Some? ==> prev.value.Valid()
    ensures p.Valid() && p.X() == Trunc(x) && p.Y() == Trunc(y)
    ensures prev.Some? ==> p == prev.value.Updated(x, y)
    ensures prev.None? ==> |p.yHistory| == 1
  {
    if prev.Some? then prev.value.Updated(x, y) else NewPoint(x, y)
  }

  /** The point of a finger identity after the finger loop: the centre of its slot's box moved
      down by a third of the box height, or unchanged when the slot does not exist. */
  function AfterFingers(prev: Option<PointValue>, fingerBoxes: seq<Box>, f: Finger): Option<PointValue>
    requires prev.Some? ==> prev.value.Valid()
  {
    if Slot(f) < |fingerBoxes| then
      var b := fingerBoxes[Slot(f)];
      Some(Observe(prev, b.cx, b.cy + b.h / 3.0))
    else prev
  }

  /** The point of an identity after the thumb step: with thumb boxes, the left thumb becomes a
      fresh point from box 0 and the right thumb one from box 1, or absent with one thumb box. */
  function AfterThumbs(prev: Option<PointValue>, thumbBoxes: seq<Box>, f: Finger): Option<PointValue>
  {
    if |thumbBoxes| == 0 || !f.IsThumb() then prev
    else if f == LeftThumb then
      Some(NewPoint(thumbBoxes[0].cx, thumbBoxes[0].cy + thumbBoxes[0].h / 2.0))
    else if |thumbBoxes| > 1 then
      Some(NewPoint(thumbBoxes[1].cx, thumbBoxes[1].cy + thumbBoxes[1].h / 2.0))
    else None
  }

  /** The point of an identity after one tracker update from sorted finger and thumb boxes. */
  function Identified(prev: Option<PointValue>, fingerBoxes: seq<Box>, thumbBoxes: seq<Box>, f: Finger)
    : (r: Option<PointValue>)
    requires prev.Some? ==> prev.value.Valid()
    ensures r.Some? ==> r.value.Valid()
  {
    AfterThumbs(AfterFingers(prev, fingerBoxes, f), thumbBoxes, f)
  }

  /** With at least eight finger boxes and two thumb boxes every identity has a point
      afterwards, whatever the tracker held before. */
  lemma FullDetectionGivesAllTen(prev: map<Finger, PointValue>, fingerBoxes: seq<Box>, thumbBoxes: seq<Box>)
    requires forall f :: f in prev ==> prev[f].Valid()
    requires |fingerBoxes| >= 8 && |thumbBoxes| >= 2
    ensures forall f :: Identified(Lookup(prev, f), fingerBoxes, thumbBoxes, f).Some?
  {
  }

  /** Without thumb boxes the thumbs keep the points the finger loop gave them, which read the
      same boxes as the opposite index fingers. Whatever the tracker held before, each thumb
      then sits where the opposite index finger sits (`Point.__eq__`); from an empty tracker
      the two points are identical, histories included. */
  lemma ThumbsShareIndexBoxes(fingerBoxes: seq<Box>, leftThumb: Option<PointValue>, rightIndex: Option<PointValue>,
                              rightThumb: Option<PointValue>, leftIndex: Option<PointValue>)
    requires |fingerBoxes| >= 5
    requires leftThumb.Some? ==> leftThumb.value.Valid()
    requires rightIndex.Some? ==> rightIndex.value.Valid()
    requires rightThumb.Some? ==> rightThumb.value.Valid()
    requires leftIndex.Some? ==> leftIndex.value.Valid()
    ensures var t := Identified(leftThumb, fingerBoxes, [], LeftThumb);
            var i := Identified(rightIndex, fingerBoxes, [], RightIndex);
            t.Some? && i.Some? && t.value.Equals(i.value)
    ensures var t := Identified(rightThumb, fingerBoxes, [], RightThumb);
            var i := Identified(leftIndex, fingerBoxes, [], LeftIndex);
            t.Some? && i.Some? && t.value.Equals(i.value)
    ensures Identified(None, fingerBoxes, [], LeftThumb) == Identified(None, fingerBoxes, [], RightIndex)
    ensures Identified(None, fingerBoxes, [], RightThumb) == Identified(None, fingerBoxes, [], LeftIndex)
  {
  }

  /** The finger and thumb points of the unit-test fixture: box (40, 40, 50, 50) gives (40, 56),
      box (0, 0, 10, 10) gives (0, 3) and thumb box (100, 100, 110, 110) gives (100, 155). */
  lemma IdentifiedExamples()
    ensures Observe(None, 40.0, 40.0 + 50.0 / 3.0) == PointValue([40], [56])
    ensures Observe(None, 0.0, 0.0 + 10.0 / 3.0) == PointValue([0], [3])
    ensures AfterThumbs(None, [Box(100.0, 100.0, 110.0, 110.0), Box(120.0, 120.0, 130.0, 130.0)], LeftThumb)
            == Some(PointValue([100], [155]))
  {
  }

  // ---------------------------------------------------------------------------
  // Marker corners
  // ---------------------------------------------------------------------------

  /** A keyboard corner: the marker centre moved by half its width and height in the
      directions `sx`, `sy` (each -1 or 1); None while the centre or the width is unset. */
  function CornerOf(centre: Option<PointValue>, width: Option<real>, height: Option<real>, sx: real, sy: real)
    : (c: Option<PointValue>)
    requires centre.Some? ==> centre.value.Valid()
    requires width.Some? ==> height.Some?
    ensures c.None? <==> centre.None? || width.None?
    ensures c.Some? ==> c.value.Valid() && |c.value.xHistory| == 1
    ensures c.Some? ==> c.value.X() == Trunc(centre.value.X() as real + sx * width.value / 2.0)
    ensures c.Some? ==> c.value.Y() == Trunc(centre.value.Y() as real + sy * height.value / 2.0)
  {
    if centre.None? || width.None? then None
    else Some(NewPoint(centre.value.X() as real + sx * width.value / 2.0,
                       centre.value.Y() as real + sy * height.value / 2.0))
  }

  function CountPresent(cs: seq<Option<PointValue>>): (n: nat)
    ensures n <= |cs|
    ensures n == |cs| <==> forall i :: 0 <= i < |cs| ==> cs[i].Some?
  {
    if cs == [] then 0
    else (if cs[0].Some? then 1 else 0) + CountPresent(cs[1..])
  }

  /** The width of a marker box corrected for perspective, given the box and the current
      centre of its reference marker (the `atan` formula of the source's math module). */
  type WidthCorrection = (Box, int, int) -> real

  /** All marker fields of the tracker but its raw boxes: four centres and their sizes. */
  datatype MarkerFields = MarkerFields(
    bl: Option<PointValue>, tl: Option<PointValue>, tr: Option<PointValue>, br: Option<PointValue>,
    blWidth: Option<real>, blHeight: Option<real>, tlWidth: Option<real>, tlHeight: Option<real>,
    trWidth: Option<real>, trHeight: Option<real>, brWidth: Option<real>, brHeight: Option<real>)

  /** The marker fields of a tracker before its first update: nothing set. */
  const UnsetMarkers: MarkerFields :=
    MarkerFields(None, None, None, None, None, None, None, None, None, None, None, None)

  /** The four keyboard-corner markers (`DetectedMarkers`). Each centre is a point whose
      history is extended frame after frame. */
  class DetectedMarkers {
    var rawBoxes: seq<Box>
    var bl: Option<PointValue>
    var tl: Option<PointValue>
    var tr: Option<PointValue>
    var br: Option<PointValue>
    var blWidth: Option<real>
    var blHeight: Option<real>
    var tlWidth: Option<real>
    var tlHeight: Option<real>
    var trWidth: Option<real>
    var trHeight: Option<real>
    var brWidth: Option<real>
    var brHeight: Option<real>
    const correctedWidth: WidthCorrection

    /** The four centres are set together and come with their sizes. */
    ghost predicate Valid()
      reads this
    {
      && (bl.None? <==> tl.None?) && (bl.None? <==> tr.None?) && (bl.None? <==> br.None?)
      && (bl.None? ==> blWidth.None? && tlWidth.None? && trWidth.None? && brWidth.None?)
      && (bl.Some? ==>
            && bl.value.Valid() && tl.value.Valid() && tr.value.Valid() && br.value.Valid()
            && blWidth.Some? && tlWidth.Some? && trWidth.Some? && brWidth.Some?
            && blHeight.Some? && tlHeight.Some? && trHeight.Some? && brHeight.Some?)
    }

    /** The size fields agree with the sorted boxes and the current centres: heights are 0.7
        of the box heights, and each width is corrected against the centre of the opposite
        marker on the same side (bottom-left against top-left and back, top-right against
        bottom-right and back). */
    ghost predicate Sized()
      reads this
      requires |rawBoxes| >= 4 && bl.Some? && tl.Some? && tr.Some? && br.Some?
      requires bl.value.Valid() && tl.value.Valid() && tr.value.Valid() && br.value.Valid()
    {
      LeftSized() && RightSized()
    }

    ghost predicate LeftSized()
      reads this
      requires |rawBoxes| >= 4 && bl.Some? && tl.Some? && bl.value.Valid() && tl.value.Valid()
    {
      && blHeight == Some(rawBoxes[0].h * 0.7) && tlHeight == Some(rawBoxes[1].h * 0.7)
      && blWidth == Some(correctedWidth(rawBoxes[0], tl.value.X(), tl.value.Y()))
      && tlWidth == Some(correctedWidth(rawBoxes[1], bl.value.X(), bl.value.Y()))
    }

    ghost predicate RightSized()
      reads this
      requires |rawBoxes| >= 4 && tr.Some? && br.Some? && tr.value.Valid() && br.value.Valid()
    {
      && trHeight == Some(rawBoxes[2].h * 0.7) && brHeight == Some(rawBoxes[3].h * 0.7)
      && trWidth == Some(correctedWidth(rawBoxes[2], br.value.X(), br.value.Y()))
      && brWidth == Some(correctedWidth(rawBoxes[3], tr.value.X(), tr.value.Y()))
    }

    /** After four or more boxes: the sorted boxes, left to right, moved the bottom-left,
        top-left, top-right and bottom-right centres (extending the history of a centre that
        existed), and the sizes were recomputed. */
    ghost predicate Moved(oldBl: Option<PointValue>, oldTl: Option<PointValue>,
                          oldTr: Option<PointValue>, oldBr: Option<PointValue>)
      reads this
      requires |rawBoxes| >= 4
      requires oldBl.Some? ==> oldBl.value.Valid()
      requires oldTl.Some? ==> oldTl.value.Valid()
      requires oldTr.Some? ==> oldTr.value.Valid()
      requires oldBr.Some? ==> oldBr.value.Valid()
    {
      && bl == Some(Observe(oldBl, rawBoxes[0].cx, rawBoxes[0].cy))
      && tl == Some(Observe(oldTl, rawBoxes[1].cx, rawBoxes[1].cy))
      && tr == Some(Observe(oldTr, rawBoxes[2].cx, rawBoxes[2].cy))
      && br == Some(Observe(oldBr, rawBoxes[3].cx, rawBoxes[3].cy))
      && Sized()
    }

    /** Every marker field except the raw boxes. */
    function Fields(): MarkerFields
      reads this
    {
      MarkerFields(bl, tl, tr, br, blWidth, blHeight, tlWidth, tlHeight,
                   trWidth, trHeight, brWidth, brHeight)
    }

    /** The marker fields after an update from the fields `before`: with fewer than four
        sorted boxes they are unchanged; otherwise the corners moved from `before`'s and were
        resized. */
    ghost predicate Follows(before: MarkerFields)
      reads this
    {
      && (before.bl.Some? ==> before.bl.value.Valid()) && (before.tl.Some? ==> before.tl.value.Valid())
      && (before.tr.Some? ==> before.tr.value.Valid()) && (before.br.Some? ==> before.br.value.Valid())
      && (|rawBoxes| < 4 ==> Fields() == before)
      && (|rawBoxes| >= 4 ==> Moved(before.bl, before.tl, before.tr, before.br))
    }

    constructor (boxes: seq<Box>, correctedWidth: WidthCorrection)
      ensures Valid()
      ensures this.correctedWidth == correctedWidth && rawBoxes == SortByX(boxes)
      ensures Follows(UnsetMarkers)
      ensures |rawBoxes| < 4 ==> bl.None?
      ensures |rawBoxes| >= 4 ==>
                && bl == Some(NewPoint(rawBoxes[0].cx, rawBoxes[0].cy))
                && tl == Some(NewPoint(rawBoxes[1].cx, rawBoxes[1].cy))
                && tr == Some(NewPoint(rawBoxes[2].cx, rawBoxes[2].cy))
                && br == Some(NewPoint(rawBoxes[3].cx, rawBoxes[3].cy))
                && Sized()
    {
      this.correctedWidth := correctedWidth;
      rawBoxes := [];
      bl, tl, tr, br := None, None, None, None;
      blWidth, blHeight, tlWidth, tlHeight := None, None, None, None;
      trWidth, trHeight, brWidth, brHeight := None, None, None, None;
      new;
      Update(boxes);
    }

    /** `update`: stores the boxes sorted by x and, given at least four, moves the markers;
        with fewer the markers are left as they were. */
    method Update(boxes: seq<Box>)
      requires Valid()
      modifies this
      ensures Valid() && rawBoxes == SortByX(boxes)
      ensures |rawBoxes| < 4 ==> Fields() == old(Fields())
      ensures |rawBoxes| >= 4 ==> Moved(old(bl), old(tl), old(tr), old(br))
      ensures Follows(old(Fields()))
    {
      rawBoxes := SortByX(boxes);
      IdentifyMarkers();
    }

    /** `_identify_markers`. */
    method IdentifyMarkers()
      requires Valid()
      modifies this
      ensures Valid() && rawBoxes == old(rawBoxes)
      ensures |rawBoxes| < 4 ==> Fields() == old(Fields())
      ensures |rawBoxes| >= 4 ==> Moved(old(bl), old(tl), old(tr), old(br))
    {
      if |rawBoxes| < 4 {
        return;
      }
      var boxes := rawBoxes;
      // an existing centre is updated, keeping its history; a missing one is created
      bl := Some(Observe(bl, boxes[0].cx, boxes[0].cy));
      tl := Some(Observe(tl, boxes[1].cx, boxes[1].cy));
      tr := Some(Observe(tr, boxes[2].cx, boxes[2].cy));
      br := Some(Observe(br, boxes[3].cx, boxes[3].cy));
      SetSizes();
    }

    method SetSizes()
      requires |rawBoxes| >= 4 && bl.Some? && tl.Some? && tr.Some? && br.Some?
      requires bl.value.Valid() && tl.value.Valid() && tr.value.Valid() && br.value.Valid()
      modifies this
      ensures rawBoxes == old(rawBoxes)
      ensures bl == old(bl) && tl == old(tl) && tr == old(tr) && br == old(br)
      ensures Valid() && Sized()
    {
      SetLeftSizes();
      SetRightSizes();
    }

    /** The sizes of the bottom-left and top-left markers, each width against the other's centre. */
    method SetLeftSizes()
      requires |rawBoxes| >= 4 && bl.Some? && tl.Some? && bl.value.Valid() && tl.value.Valid()
      modifies this
      ensures rawBoxes == old(rawBoxes) && bl == old(bl) && tl == old(tl) && tr == old(tr) && br == old(br)
      ensures trWidth == old(trWidth) && trHeight == old(trHeight)
      ensures brWidth == old(brWidth) && brHeight == old(brHeight)
      ensures LeftSized()
    {
      var bottom, top := bl.value, tl.value;
      blWidth := Some(correctedWidth(rawBoxes[0], top.X(), top.Y()));
      blHeight := Some(rawBoxes[0].h * 0.7);
      tlWidth := Some(correctedWidth(rawBoxes[1], bottom.X(), bottom.Y()));
      tlHeight := Some(rawBoxes[1].h * 0.7);
    }

    /** The sizes of the top-right and bottom-right markers, each width against the other's centre. */
    method SetRightSizes()
      requires |rawBoxes| >= 4 && tr.Some? && br.Some? && tr.value.Valid() && br.value.Valid()
      modifies this
      ensures rawBoxes == old(rawBoxes) && bl == old(bl) && tl == old(tl) && tr == old(tr) && br == old(br)
      ensures blWidth == old(blWidth) && blHeight == old(blHeight)
      ensures tlWidth == old(tlWidth) && tlHeight == old(tlHeight)
      ensures RightSized()
    {
      var top, bottom := tr.value, br.value;
      trWidth := Some(correctedWidth(rawBoxes[2], bottom.X(), bottom.Y()));
      trHeight := Some(rawBoxes[2].h * 0.7);
      brWidth := Some(correctedWidth(rawBoxes[3], top.X(), top.Y()));
      brHeight := Some(rawBoxes[3].h * 0.7);
    }

    function BottomLeftMarker(): (c: Option<PointValue>)
      reads this
      requires Valid()
      ensures c.Some? <==> bl.Some?
    {
      CornerOf(bl, blWidth, blHeight, -1.0, -1.0)
    }

    function TopLeftMarker(): (c: Option<PointValue>)
      reads this
      requires Valid()
      ensures c.Some? <==> tl.Some?
    {
      CornerOf(tl, tlWidth, tlHeight, -1.0, 1.0)
    }

    function TopRightMarker(): (c: Option<PointValue>)
      reads this
      requires Valid()
      ensures c.Some? <==> tr.Some?
    {
      CornerOf(tr, trWidth, trHeight, 1.0, 1.0)
    }

    function BottomRightMarker(): (c: Option<PointValue>)
      reads this
      requires Valid()
      ensures c.Some? <==> br.Some?
    {
      CornerOf(br, brWidth, brHeight, 1.0, -1.0)
    }

    /** `all_marker_coordinates`: always four entries, bottom-left, top-left, top-right, bottom-right. */
    function AllMarkerCoordinates(): (cs: seq<Option<PointValue>>)
      reads this
      requires Valid()
      ensures |cs| == 4
      ensures cs[0] == BottomLeftMarker() && cs[1] == TopLeftMarker()
      ensures cs[2] == TopRightMarker() && cs[3] == BottomRightMarker()
    {
      [BottomLeftMarker(), TopLeftMarker(), TopRightMarker(), BottomRightMarker()]
    }

    /** `any_markers_missing`: fewer than four corners are known. Corners are set together,
        so either all four are known or none is. */
    function AnyMarkersMissing(): (b: bool)
      reads this
      requires Valid()
      ensures b <==> exists i :: 0 <= i < 4 && AllMarkerCoordinates()[i].None?
      ensures b <==> bl.None?
    {
      CountPresent(AllMarkerCoordinates()) < 4
    }

    function AllMarkersPresent(): (b: bool)
      reads this
      requires Valid()
      ensures b <==> !AnyMarkersMissing()
      ensures b <==> BottomLeftMarker().Some? && TopLeftMarker().Some?
                       && TopRightMarker().Some? && BottomRightMarker().Some?
    {
      !AnyMarkersMissing()
    }
  }

  // ---------------------------------------------------------------------------
  // Finger and thumb tracker
  // ---------------------------------------------------------------------------

  /** The finger/thumb tracker (`DetectedFingersAndThumbs`): a point per detected identity,
      carried from frame to frame. */
  class DetectedFingersAndThumbs {
    var coordinates: map<Finger, PointValue>
    var rawFingerBoxes: seq<Box>
    var rawThumbBoxes: seq<Box>

    ghost predicate Valid()
      reads this
    {
      forall f :: f in coordinates ==> coordinates[f].Valid()
    }

    /** Every identity's point is the one the finger and thumb passes make from the sorted
        boxes and the point it had in `prior`. */
    ghost predicate Follows(prior: map<Finger, PointValue>)
      reads this
    {
      && (forall f :: f in prior ==> prior[f].Valid())
      && forall f :: Lookup(coordinates, f) == Identified(Lookup(prior, f), rawFingerBoxes, rawThumbBoxes, f)
    }

    /** The tracker as a value. */
    function AsSnapshot(): (s: Snapshot)
      reads this
      requires Valid()
      ensures s.WellFormed() && s.points == coordinates && s.fingerBoxes == rawFingerBoxes
    {
      Snapshot(coordinates, rawFingerBoxes)
    }

    constructor (fingerBoxes: seq<Box>, thumbBoxes: seq<Box>)
      ensures Valid()
      ensures rawFingerBoxes == SortByX(fingerBoxes) && rawThumbBoxes == SortByX(thumbBoxes)
      ensures forall f :: Lookup(coordinates, f) == Identified(None, rawFingerBoxes, rawThumbBoxes, f)
    {
      coordinates := map[];
      rawFingerBoxes := [];
      rawThumbBoxes := [];
      new;
      Update(fingerBoxes, thumbBoxes);
    }

    /** `update`: sorts both box lists by x, then assigns fingers and thumbs by position. */
    method Update(fingerBoxes: seq<Box>, thumbBoxes: seq<Box>)
      requires Valid()
      modifies this
      ensures Valid()
      ensures rawFingerBoxes == SortByX(fingerBoxes) && rawThumbBoxes == SortByX(thumbBoxes)
      ensures forall f :: Lookup(coordinates, f) ==
                Identified(Lookup(old(coordinates), f), rawFingerBoxes, rawThumbBoxes, f)
    {
      rawFingerBoxes := SortByX(fingerBoxes);
      rawThumbBoxes := SortByX(thumbBoxes);
      IdentifyFingers();
      IdentifyThumbs();
    }

    /** `_identify_fingers`: every identity, thumbs included, takes the box of its slot. */
    method IdentifyFingers()
      requires Valid()
      modifies this
      ensures Valid()
      ensures rawFingerBoxes == old(rawFingerBoxes) && rawThumbBoxes == old(rawThumbBoxes)
      ensures forall f :: Lookup(coordinates, f) == AfterFingers(Lookup(old(coordinates), f), rawFingerBoxes, f)
    {
      var fingers := Values();
      var i := 0;
      while i < |fingers|
        invariant 0 <= i <= |fingers|
        invariant Valid()
        invariant rawFingerBoxes == old(rawFingerBoxes) && rawThumbBoxes == old(rawThumbBoxes)
        invariant forall f :: Lookup(coordinates, f) ==
                    if f.Index() < i then AfterFingers(Lookup(old(coordinates), f), rawFingerBoxes, f)
                    else Lookup(old(coordinates), f)
      {
        assert fingers[i].Index() == i;
        IdentifyFinger(fingers[i]);
        i := i + 1;
      }
    }

    /** One pass of the finger loop: the identity takes the box at its slot, if there is one. */
    method IdentifyFinger(finger: Finger)
      requires Valid()
      modifies this
      ensures Valid()
      ensures rawFingerBoxes == old(rawFingerBoxes) && rawThumbBoxes == old(rawThumbBoxes)
      ensures forall f :: Lookup(coordinates, f) ==
                if f == finger then AfterFingers(Lookup(old(coordinates), f), rawFingerBoxes, f)
                else Lookup(old(coordinates), f)
    {
      var slot := Slot(finger);
      if slot < |rawFingerBoxes| {
        var b := rawFingerBoxes[slot];
        TrackFinger(finger, b.cx, b.cy + b.h / 3.0);
      }
    }

    /** One step of the finger loop: the identity's existing point takes the coordinates of a
        fresh point (`pupdate`), or the fresh point becomes the identity's point. */
    method TrackFinger(finger: Finger, x: real, y: real)
      requires Valid()
      modifies this
      ensures Valid()
      ensures rawFingerBoxes == old(rawFingerBoxes) && rawThumbBoxes == old(rawThumbBoxes)
      ensures coordinates == old(coordinates)[finger := Observe(Lookup(old(coordinates), finger), x, y)]
    {
      var newCoordinates := NewPoint(x, y);
      if finger in coordinates {
        var current := coordinates[finger];
        PUpdateIsUpdate(current, x, y);
        coordinates := coordinates[finger := current.Updated(newCoordinates.X() as real, newCoordinates.Y() as real)];
      } else {
        coordinates := coordinates[finger := newCoordinates];
      }
    }

    /** `_identify_thumbs`: with thumb boxes, the left thumb gets a fresh point from the first
        and the right thumb one from the second, or none; without thumb boxes the thumbs keep
        what the finger loop gave them. */
    method IdentifyThumbs()
      requires Valid()
      modifies this
      ensures Valid()
      ensures rawFingerBoxes == old(rawFingerBoxes) && rawThumbBoxes == old(rawThumbBoxes)
      ensures forall f :: Lookup(coordinates, f) == AfterThumbs(Lookup(old(coordinates), f), rawThumbBoxes, f)
    {
      if |rawThumbBoxes| > 0 {
        var b := rawThumbBoxes[0];
        coordinates := coordinates[LeftThumb := NewPoint(b.cx, b.cy + b.h / 2.0)];
        if |rawThumbBoxes| > 1 {
          var c := rawThumbBoxes[1];
          coordinates := coordinates[RightThumb := NewPoint(c.cx, c.cy + c.h / 2.0)];
        } else {
          coordinates := coordinates - {RightThumb};
        }
      }
    }
  }
}

=== FILE: finger_down_detector.dfy ===
/** The finger-down test. Image y grows downwards, so a finger pressing a key is the lowest
    tracked point; it counts as down when it is not moving fast and its distance below its
    neighbour exceeds the calibrated distance by more than a threshold set by the average
    finger height and the sensitivity. */
module DownDetection {
  import opened Types
  import opened DetectedObjects
  import opened Calibration

  /** The window of `velocity_y` the test reads. */
  const VelocityWindow: int := 3

  /** The downward velocity above which a finger is taken to be moving, not pressing. */
  const MaxVelocityY: real := 5.0

  /** `average_finger_height * 2 * (1 - sensitivity)`: twice the average finger height at
      sensitivity 0, falling to nothing at sensitivity 1, and never negative in between. */
  function Threshold(s: Snapshot, sensitivity: real): (t: real)
    ensures sensitivity == 0.0 ==> t == 2.0 * AverageFingerHeight(s)
    ensures sensitivity == 1.0 || |s.fingerBoxes| == 0 ==> t == 0.0
    ensures AverageFingerHeight(s) >= 0.0 && sensitivity <= 1.0 ==> t >= 0.0
  {
    AverageFingerHeight(s) * 2.0 * (1.0 - sensitivity)
  }

  /** Every other tracked identity is strictly above `f` (has a smaller y): `f` has the
      greatest y of all tracked identities and shares it with none. */
  predicate LowerThanAllOthers(points: map<Finger, PointValue>, f: Finger): (b: bool)
    requires f in points
    ensures b <==> (forall g :: g in points ==> points[g].Y() <= points[f].Y()) &&
                   (forall g :: g in points && points[g].Y() == points[f].Y() ==> g == f)
  {
    forall g :: g in points && g != f ==> points[g].Y() < points[f].Y()
  }

  /** `is_finger_down` for the tracker state `s`, the finger's calibrated distance
      `calibration` and the detector's sensitivity. */
  function IsDown(s: Snapshot, f: Finger, calibration: real, sensitivity: real): (down: bool)
    ensures down ==> f in s.points && Neighbor(f) in s.points && LowerThanAllOthers(s.points, f)
    ensures down ==> s.points[f].VelocityY(VelocityWindow) <= MaxVelocityY
  {
    if f !in s.points then false
    else if s.points[f].VelocityY(VelocityWindow) > MaxVelocityY then false
    else
      var current := CalibrationValue(s.points, f);
      if current.None? then false
      else LowerThanAllOthers(s.points, f) && current.value as real - calibration > Threshold(s, sensitivity)
  }

  /** A finger that is down is tracked, slow, measured against a tracked neighbour, below every
      other tracked identity, and further from its neighbour than calibrated by more than the
      threshold. */
  lemma DownFingerIsLowest(s: Snapshot, f: Finger, calibration: real, sensitivity: real)
    requires IsDown(s, f, calibration, sensitivity)
    ensures f in s.points && Neighbor(f) in s.points
    ensures s.points[f].VelocityY(VelocityWindow) <= MaxVelocityY
    ensures forall g :: g in s.points && g != f ==> s.points[g].Y() < s.points[f].Y()
    ensures (s.points[f].Y() - s.points[Neighbor(f)].Y()) as real - calibration > Threshold(s, sensitivity)
  {
  }

  /** The test is strict, so two different identities are never down in the same state,
      whatever their calibrations. */
  lemma AtMostOneDown(s: Snapshot, f: Finger, g: Finger, cf: real, cg: real, sensitivity: real)
    requires IsDown(s, f, cf, sensitivity) && IsDown(s, g, cg, sensitivity)
    ensures f == g
  {
    if f != g {
      DownFingerIsLowest(s, f, cf, sensitivity);
      DownFingerIsLowest(s, g, cg, sensitivity);
      assert false;
    }
  }

  /** A finger moving down faster than the limit is never down. */
  lemma MovingFingerIsNotDown(s: Snapshot, f: Finger, calibration: real, sensitivity: real)
    requires f in s.points && s.points[f].VelocityY(VelocityWindow) > MaxVelocityY
    ensures !IsDown(s, f, calibration, sensitivity)
  {
  }

  /** With finger boxes of non-negative height, raising the sensitivity lowers the threshold,
      so a finger down at one sensitivity is down at every higher one. */
  lemma SensitivityIsMonotone(s: Snapshot, f: Finger, calibration: real, low: real, high: real)
    requires forall i :: 0 <= i < |s.fingerBoxes| ==> s.fingerBoxes[i].h >= 0.0
    requires low <= high && IsDown(s, f, calibration, low)
    ensures IsDown(s, f, calibration, high)
  {
    SumHeightsNonNegative(s.fingerBoxes);
    var a := AverageFingerHeight(s);
    assert a >= 0.0 by {
      if |s.fingerBoxes| > 0 {
        assert a * |s.fingerBoxes| as real >= 0.0;
      }
    }
    ThresholdFalls(s, low, high);
  }

  /** With a non-negative average height the threshold falls as the sensitivity rises. */
  lemma ThresholdFalls(s: Snapshot, low: real, high: real)
    requires AverageFingerHeight(s) >= 0.0 && low <= high
    ensures Threshold(s, high) <= Threshold(s, low)
  {
    var a := AverageFingerHeight(s);
    assert a * 2.0 * (1.0 - low) - a * 2.0 * (1.0 - high) == a * 2.0 * (high - low);
    assert a * 2.0 * (high - low) >= 0.0;
  }

  /** A smaller calibrated distance makes the test easier to pass. */
  lemma CalibrationIsMonotone(s: Snapshot, f: Finger, larger: real, smaller: real, sensitivity: real)
    requires smaller <= larger && IsDown(s, f, larger, sensitivity)
    ensures IsDown(s, f, smaller, sensitivity)
  {
  }

  /** A pinky 10 pixels below its neighbour, everyone else above it, finger boxes 5 high, a
      baseline of 0 and sensitivity 0.5: the threshold is 5 * 2 * 0.5 = 5 < 10, so it is down. */
  lemma DownExample()
    ensures IsDown(Snapshot(
      map[LeftPinky := NewPoint(0.0, 20.0), LeftRing := NewPoint(0.0, 10.0), LeftMiddle := NewPoint(0.0, 3.0)],
      [Box(0.0, 0.0, 1.0, 5.0)]), LeftPinky, 0.0, 0.5)
  {
    var s := Snapshot(
      map[LeftPinky := NewPoint(0.0, 20.0), LeftRing := NewPoint(0.0, 10.0), LeftMiddle := NewPoint(0.0, 3.0)],
      [Box(0.0, 0.0, 1.0, 5.0)]);
    assert Threshold(s, 0.5) == 5.0;
    assert CalibrationValue(s.points, LeftPinky) == Some(10);
  }

  /** `FingerDownDetector`: a calibration strategy and a sensitivity. */
  class FingerDownDetector {
    const calibration: AdjacentNeighborCalibration
    const sensitivity: real

    constructor (calibration: AdjacentNeighborCalibration, sensitivity: real)
      ensures this.calibration == calibration && this.sensitivity == sensitivity
    {
      this.calibration := calibration;
      this.sensitivity := sensitivity;
    }

    /** `is_finger_down`: the guards in the source's order; the strategy is asked for the
        finger's calibrated distance, which leaves a valid strategy unchanged. */
    method IsFingerDown(t: DetectedFingersAndThumbs, f: Finger) returns (down: bool)
      requires calibration.Valid() && t.Valid()
      modifies calibration
      ensures calibration.history == old(calibration.history) && calibration.cache == old(calibration.cache)
      ensures down == IsDown(t.AsSnapshot(), f, calibration.CalibrationFor(f), sensitivity)
    {
      var points := t.coordinates;
      if f !in points {
        return false;
      }
      var coordinates := points[f];
      if coordinates.VelocityY(VelocityWindow) > MaxVelocityY {
        return false;
      }
      var calibrationValue := calibration.GetCalibrationFor(f);
      var current := CalibrationValue(points, f);
      if current.None? {
        return false;
      }
      var delta := current.value as real - calibrationValue;
      var threshold := Threshold(t.AsSnapshot(), sensitivity);
      down := LowerThanAllOthers(points, f) && delta > threshold;
    }
  }
}

=== FILE: keyboard_layout.dfy ===
/** The keyboard layout: a flat list of key rectangles in coordinates relative to the markers
    (0 to 1 on both axes), built row by row from the parsed layout description, with the
    first-match lookup of a point and the key-name tables. */
module KeyboardLayout {
  import opened Types

  /** `Key`: a named rectangle with its lower corner at (x, y). */
  datatype Key = Key(name: string, x: real, y: real, width: real, height: real)
  {
    /** `contains`: both intervals are closed, so a key of non-negative size holds its own
        corners, and a key of negative width or height holds no point at all. */
    predicate Contains(px: real, py: real): (b: bool)
      ensures b ==> width >= 0.0 && height >= 0.0
      ensures width >= 0.0 && height >= 0.0 && (px == x || px == x + width) && (py == y || py == y + height) ==> b
    {
      x <= px <= x + width && y <= py <= y + height
    }
  }

  /** A key of the layout description: its name and width. */
  datatype KeySpec = KeySpec(name: string, width: real)

  /** A row of the layout description; its number is the suffix of its name after the last `_`. */
  datatype Row = Row(name: string, keys: seq<KeySpec>)

  /** The parsed layout description: the height of every key and the rows in file order. */
  datatype Layout = Layout(keyHeight: real, rows: seq<Row>)

  /** The `ValueError`s building the flat layout raises. */
  datatype LayoutError =
    | XOutOfRange(key: string)    // a key starts at x >= 1
    | YOutOfRange(key: string)    // a key starts at y >= 1
    | BadRowNumber(row: string)   // the suffix of a row name is not an integer

  // ---------------------------------------------------------------------------------------
  // Row numbers: `int(row.split("_")[-1]) - 1`
  // ---------------------------------------------------------------------------------------

  /** `s.split("_")[-1]`: the text after the last `_`, or all of `s` without one. */
  function LastSegment(s: string): (r: string)
    ensures '_' !in r
    ensures |r| <= |s| && r == s[|s| - |r|..]
    ensures |r| < |s| ==> s[|s| - |r| - 1] == '_'
  {
    if s == [] then []
    else if s[|s| - 1] == '_' then []
    else LastSegment(s[..|s| - 1]) + [s[|s| - 1]]
  }

  predicate IsDigit(c: char)
  {
    '0' <= c <= '9'
  }

  predicate AllDigits(s: string)
  {
    forall i :: 0 <= i < |s| ==> IsDigit(s[i])
  }

  /** The value of a string of decimal digits. */
  function DigitsValue(s: string): nat
    requires AllDigits(s)
  {
    if s == [] then 0 else DigitsValue(s[..|s| - 1]) * 10 + (s[|s| - 1] as int - '0' as int)
  }

  /** `int(s)` on an optional sign followed by decimal digits; `None` where Python raises. */
  function ParseInt(s: string): (r: Option<int>)
    ensures s == [] ==> r.None?
    ensures s != [] && AllDigits(s) ==> r == Some(DigitsValue(s))
    ensures r.Some? && s[0] == '-' ==> r.value <= 0
  {
    if s != [] && (s[0] == '+' || s[0] == '-') then
      var digits := s[1..];
      if digits != [] && AllDigits(digits) then
        var magnitude: int := DigitsValue(digits);
        Some(if s[0] == '-' then -magnitude else magnitude)
      else None
    else if s != [] && AllDigits(s) then Some(DigitsValue(s))
    else None
  }

  /** Only numerals parse: an optional sign and then decimal digits, nothing else. */
  lemma ParseIntAcceptsOnlyNumerals(s: string)
    requires ParseInt(s).Some?
    ensures s != [] && (IsDigit(s[0]) || s[0] == '+' || s[0] == '-') && AllDigits(s[1..])
  {
  }

  /** The zero-based row index a row name gives. */
  function RowIndex(name: string): Option<int>
  {
    var n := ParseInt(LastSegment(name));
    if n.Some? then Some(n.value - 1) else None
  }

  /** The decimal digits of `n`, without leading zeros. */
  function DecimalDigits(n: nat): (s: string)
    ensures s != [] && AllDigits(s)
  {
    if n < 10 then [('0' as int + n) as char]
    else DecimalDigits(n / 10) + [('0' as int + n % 10) as char]
  }

  lemma {:induction false} DigitsRoundTrip(n: nat)
    ensures DigitsValue(DecimalDigits(n)) == n
  {
    var s := DecimalDigits(n);
    if n >= 10 {
      DigitsRoundTrip(n / 10);
      assert s[..|s| - 1] == DecimalDigits(n / 10);
    }
  }

  /** A row named `<prefix>_<n>` is the row with index `n - 1`, whatever the prefix. */
  lemma RowNumberIsSuffix(prefix: string, n: nat)
    ensures RowIndex(prefix + "_" + DecimalDigits(n)) == Some(n - 1)
  {
    var digits := DecimalDigits(n);
    var name := prefix + "_" + digits;
    SuffixWithoutSeparator(prefix + "_", digits);
    assert LastSegment(name) == digits;
    ParseDecimalDigits(n);
  }

  /** `int` reads back the decimal digits of `n`. */
  lemma ParseDecimalDigits(n: nat)
    ensures ParseInt(DecimalDigits(n)) == Some(n)
  {
    var digits := DecimalDigits(n);
    DigitsRoundTrip(n);
    assert IsDigit(digits[0]);
  }

  /** The last segment of `a + b` is `b` when `a` ends in `_` and `b` holds no `_`. */
  lemma {:induction false} SuffixWithoutSeparator(a: string, b: string)
    requires a != [] && a[|a| - 1] == '_' && '_' !in b
    ensures LastSegment(a + b) == b
  {
    if b == [] {
      assert a + b == a;
    } else {
      var c := b[..|b| - 1];
      assert '_' !in c by {
        forall i | 0 <= i < |c| ensures c[i] != '_' {
          assert c[i] == b[i];
        }
      }
      SuffixWithoutSeparator(a, c);
      assert (a + b)[..|a + b| - 1] == a + c;
    }
  }

  // ---------------------------------------------------------------------------------------
  // The flat layout
  // ---------------------------------------------------------------------------------------

  /** The total width of a run of keys. */
  function Widths(keys: seq<KeySpec>): real
  {
    if keys == [] then 0.0 else keys[0].width + Widths(keys[1..])
  }

  /** `r` with `prefix` put in front of its keys; errors pass through. */
  function Prefixed(prefix: seq<Key>, r: Result<seq<Key>, LayoutError>): Result<seq<Key>, LayoutError>
  {
    match r
    case Ok(ks) => Ok(prefix + ks)
    case Err(e) => Err(e)
  }

  /** The keys of one row from the one starting at `x`: each starts where the previous one
      ends, at height `y`; a key starting at x >= 1 or y >= 1 fails, x checked first. */
  function RowKeysFrom(keys: seq<KeySpec>, x: real, y: real, h: real): (r: Result<seq<Key>, LayoutError>)
    ensures r.Ok? ==> |r.value| == |keys|
    ensures r.Err? ==> (r.error.XOutOfRange? || r.error.YOutOfRange?) &&
                       exists i :: 0 <= i < |keys| && r.error.key == keys[i].name
    ensures keys != [] && y >= 1.0 ==> r.Err?
  {
    if keys == [] then Ok([])
    else if x >= 1.0 then Err(XOutOfRange(keys[0].name))
    else if y >= 1.0 then Err(YOutOfRange(keys[0].name))
    else Prefixed([Key(keys[0].name, x, y, keys[0].width, h)], RowKeysFrom(keys[1..], x + keys[0].width, y, h))
  }

  /** `row_index * key_height`, the height of a row, written as repeated addition so that
      proofs about the layout need no nonlinear arithmetic. */
  function RowY(index: int, keyHeight: real): real
    decreases if index < 0 then -index else index
  {
    if index == 0 then 0.0
    else if index > 0 then RowY(index - 1, keyHeight) + keyHeight
    else RowY(index + 1, keyHeight) - keyHeight
  }

  /** The height of a row is the product of its index and the key height. */
  lemma {:induction false} RowYIsProduct(index: int, keyHeight: real)
    ensures RowY(index, keyHeight) == index as real * keyHeight
    decreases if index < 0 then -index else index
  {
    if index > 0 {
      RowYIsProduct(index - 1, keyHeight);
    } else if index < 0 {
      RowYIsProduct(index + 1, keyHeight);
    }
  }

  /** The keys of one row of the description, at the height its number gives. */
  function RowAt(row: Row, keyHeight: real): (r: Result<seq<Key>, LayoutError>)
    ensures RowIndex(row.name).None? <==> r == Err(BadRowNumber(row.name))
    ensures r.Ok? ==> |r.value| == |row.keys|
  {
    match RowIndex(row.name)
    case None => Err(BadRowNumber(row.name))
    case Some(index) => RowKeysFrom(row.keys, 0.0, RowY(index, keyHeight), keyHeight)
  }

  /** The keys of the rows, row after row; the first failing row's error otherwise. */
  function FlatLayoutFrom(rows: seq<Row>, keyHeight: real): Result<seq<Key>, LayoutError>
  {
    if rows == [] then Ok([])
    else
      var first := RowAt(rows[0], keyHeight);
      if first.Err? then Err(first.error)
      else Prefixed(first.value, FlatLayoutFrom(rows[1..], keyHeight))
  }

  /** The flat layout of a layout description, or the error building it raises: it is built
      exactly when every row is, and otherwise fails with the error of the first failing row. */
  function FlatLayout(layout: Layout): (r: Result<seq<Key>, LayoutError>)
    ensures r.Ok? <==> forall i :: 0 <= i < |layout.rows| ==> RowAt(layout.rows[i], layout.keyHeight).Ok?
    ensures r.Err? ==> exists i :: 0 <= i < |layout.rows| && FirstFailingRow(layout.rows, layout.keyHeight, i) &&
                                   RowAt(layout.rows[i], layout.keyHeight) == Err(r.error)
  {
    FlatLayoutFromRows(layout.rows, layout.keyHeight);
    FlatLayoutFrom(layout.rows, layout.keyHeight)
  }

  /** Row `i` fails and every row before it is built. */
  predicate FirstFailingRow(rows: seq<Row>, keyHeight: real, i: nat)
    requires i < |rows|
  {
    RowAt(rows[i], keyHeight).Err? && forall j :: 0 <= j < i ==> RowAt(rows[j], keyHeight).Ok?
  }

  /** The rows decide the layout: it is built exactly when every row is, and otherwise fails
      with the error of the first failing row. */
  lemma {:induction false} FlatLayoutFromRows(rows: seq<Row>, keyHeight: real)
    ensures FlatLayoutFrom(rows, keyHeight).Ok? <==> forall i :: 0 <= i < |rows| ==> RowAt(rows[i], keyHeight).Ok?
    ensures FlatLayoutFrom(rows, keyHeight).Err? ==>
              exists i :: 0 <= i < |rows| && FirstFailingRow(rows, keyHeight, i) &&
                          RowAt(rows[i], keyHeight) == Err(FlatLayoutFrom(rows, keyHeight).error)
  {
    if rows != [] {
      FlatLayoutFromRows(rows[1..], keyHeight);
      if RowAt(rows[0], keyHeight).Err? {
        assert FirstFailingRow(rows, keyHeight, 0);
      } else {
        if FlatLayoutFrom(rows[1..], keyHeight).Err? {
          var i :| 0 <= i < |rows[1..]| && FirstFailingRow(rows[1..], keyHeight, i) &&
                   RowAt(rows[1..][i], keyHeight) == Err(FlatLayoutFrom(rows[1..], keyHeight).error);
          assert FirstFailingRow(rows, keyHeight, i + 1) by {
            forall j | 0 <= j < i + 1 ensures RowAt(rows[j], keyHeight).Ok? {
              if j > 0 {
                assert rows[j] == rows[1..][j - 1];
              }
            }
          }
        } else {
          forall i | 0 <= i < |rows| ensures RowAt(rows[i], keyHeight).Ok? {
            if i > 0 {
              assert rows[i] == rows[1..][i - 1];
            }
          }
        }
      }
    }
  }

  lemma PrefixedNothing(r: Result<seq<Key>, LayoutError>)
    ensures Prefixed([], r) == r
  {
    if r.Ok? {
      assert [] + r.value == r.value;
    }
  }

  lemma PrefixedTwice(a: seq<Key>, b: seq<Key>, r: Result<seq<Key>, LayoutError>)
    ensures Prefixed(a, Prefixed(b, r)) == Prefixed(a + b, r)
  {
    if r.Ok? {
      assert a + (b + r.value) == (a + b) + r.value;
    }
  }

  /** A row is built exactly when every key of it starts below 1 on both axes; its keys then
      keep their names, widths and order, each starts at `x` plus the widths of the keys in
      front of it, at height `y`, and is `h` high. */
  lemma {:induction false} RowKeysPositions(keys: seq<KeySpec>, x: real, y: real, h: real)
    ensures RowKeysFrom(keys, x, y, h).Ok? <==>
              forall k :: 0 <= k < |keys| ==> x + Widths(keys[..k]) < 1.0 && y < 1.0
    ensures RowKeysFrom(keys, x, y, h).Ok? ==>
              var ks := RowKeysFrom(keys, x, y, h).value;
              |ks| == |keys| &&
              forall k :: 0 <= k < |keys| ==> ks[k] == Key(keys[k].name, x + Widths(keys[..k]), y, keys[k].width, h)
  {
    if keys != [] {
      var x' := x + keys[0].width;
      RowKeysPositions(keys[1..], x', y, h);
      forall k | 1 <= k <= |keys|
        ensures x + Widths(keys[..k]) == x' + Widths(keys[1..][..k - 1])
      {
        assert keys[..k][1..] == keys[1..][..k - 1];
      }
      assert keys[..0] == [];
      if RowKeysFrom(keys, x, y, h).Ok? {
        var ks := RowKeysFrom(keys, x, y, h).value;
        var rest := RowKeysFrom(keys[1..], x', y, h).value;
        assert ks == [Key(keys[0].name, x, y, keys[0].width, h)] + rest;
        forall k | 0 <= k < |keys|
          ensures ks[k] == Key(keys[k].name, x + Widths(keys[..k]), y, keys[k].width, h)
        {
          if k > 0 {
            assert ks[k] == rest[k - 1];
          }
        }
      }
      if forall k :: 0 <= k < |keys| ==> x + Widths(keys[..k]) < 1.0 && y < 1.0 {
        assert x + Widths(keys[..0]) < 1.0;
        forall k | 0 <= k < |keys| - 1 ensures x' + Widths(keys[1..][..k]) < 1.0 {
          assert x + Widths(keys[..k + 1]) < 1.0;
        }
      } else {
        var k :| 0 <= k < |keys| && !(x + Widths(keys[..k]) < 1.0 && y < 1.0);
        if k > 0 && x < 1.0 && y < 1.0 {
          assert !(x' + Widths(keys[1..][..k - 1]) < 1.0 && y < 1.0);
        }
      }
    }
  }

  /** Every key of a built row starts below 1 on both axes and is `h` high. */
  lemma {:induction false} RowKeysStartInside(keys: seq<KeySpec>, x: real, y: real, h: real)
    requires RowKeysFrom(keys, x, y, h).Ok?
    ensures forall key :: key in RowKeysFrom(keys, x, y, h).value ==> key.x < 1.0 && key.y < 1.0 && key.height == h
  {
    if keys != [] {
      RowKeysStartInside(keys[1..], x + keys[0].width, y, h);
    }
  }

  lemma RowAtStartsInside(row: Row, keyHeight: real)
    requires RowAt(row, keyHeight).Ok?
    ensures forall key :: key in RowAt(row, keyHeight).value ==>
              key.x < 1.0 && key.y < 1.0 && key.height == keyHeight
  {
    match RowIndex(row.name)
    case None => assert false;
    case Some(index) => RowKeysStartInside(row.keys, 0.0, RowY(index, keyHeight), keyHeight);
  }

  /** Every key of a built layout starts below 1 on both axes and is `keyHeight` high; only
      the start is checked, so a key may still reach past 1. */
  lemma {:induction false} FlatLayoutStartsInside(rows: seq<Row>, keyHeight: real)
    requires FlatLayoutFrom(rows, keyHeight).Ok?
    ensures forall key :: key in FlatLayoutFrom(rows, keyHeight).value ==>
              key.x < 1.0 && key.y < 1.0 && key.height == keyHeight
  {
    if rows != [] {
      RowAtStartsInside(rows[0], keyHeight);
      FlatLayoutStartsInside(rows[1..], keyHeight);
    }
  }

  /** A key wider than the whole layout is accepted when it starts inside. */
  lemma WideKeyAccepted()
    ensures FlatLayout(Layout(0.5, [Row("row_1", [KeySpec("space", 5.0)])])) ==
            Ok([Key("space", 0.0, 0.0, 5.0, 0.5)])
  {
    WideKeyRow();
    SingleRowLayout(Row("row_1", [KeySpec("space", 5.0)]), 0.5);
  }

  /** A layout of one row that builds is that row's keys. */
  lemma SingleRowLayout(row: Row, keyHeight: real)
    requires RowAt(row, keyHeight).Ok?
    ensures FlatLayout(Layout(keyHeight, [row])) == RowAt(row, keyHeight)
  {
    assert FlatLayoutFrom([row][1..], keyHeight) == Ok([]) by {
      assert [row][1..] == [];
    }
    assert [row][0] == row;
    assert RowAt(row, keyHeight).value + [] == RowAt(row, keyHeight).value;
  }

  /** The one row of the wide-key layout holds the one key. */
  lemma WideKeyRow()
    ensures RowAt(Row("row_1", [KeySpec("space", 5.0)]), 0.5) == Ok([Key("space", 0.0, 0.0, 5.0, 0.5)])
  {
    var row := Row("row_1", [KeySpec("space", 5.0)]);
    var key := Key("space", 0.0, 0.0, 5.0, 0.5);
    FirstRowIndex();
    assert row.keys[1..] == [];
    assert RowKeysFrom(row.keys[1..], 5.0, 0.0, 0.5) == Ok([]);
    assert [key] + [] == [key];
  }

  /** A second key starting at x = 1 is refused with its own name. */
  lemma RowTooWideRefused()
    ensures FlatLayout(Layout(0.5, [Row("row_1", [KeySpec("q", 1.0), KeySpec("w", 0.1)])])) ==
            Err(XOutOfRange("w"))
  {
    var row := Row("row_1", [KeySpec("q", 1.0), KeySpec("w", 0.1)]);
    FirstRowIndex();
    assert RowKeysFrom(row.keys[1..], 1.0, 0.0, 0.5) == Err(XOutOfRange("w"));
    assert RowAt(row, 0.5) == Err(XOutOfRange("w"));
  }

  /** The row named `row_1` is the first, at height 0. */
  lemma FirstRowIndex()
    ensures RowIndex("row_1") == Some(0) && RowY(0, 0.5) == 0.0
  {
    assert LastSegment("row_1") == "1";
  }

  /** One row of `_calculate_key_coordinates`: the running `x` starts at 0 and grows by each
      key's width. */
  method RowKeys(keys: seq<KeySpec>, y: real, keyHeight: real) returns (r: Result<seq<Key>, LayoutError>)
    ensures r == RowKeysFrom(keys, 0.0, y, keyHeight)
  {
    var ks: seq<Key> := [];
    var x := 0.0;
    var j := 0;
    assert keys[0..] == keys;
    PrefixedNothing(RowKeysFrom(keys, 0.0, y, keyHeight));
    while j < |keys|
      invariant 0 <= j <= |keys|
      invariant RowKeysFrom(keys, 0.0, y, keyHeight) ==
                Prefixed(ks, RowKeysFrom(keys[j..], x, y, keyHeight))
    {
      var key := keys[j];
      assert keys[j..][0] == key && keys[j..][1..] == keys[j + 1..];
      if x >= 1.0 {
        return Err(XOutOfRange(key.name));
      }
      if y >= 1.0 {
        return Err(YOutOfRange(key.name));
      }
      PrefixedTwice(ks, [Key(key.name, x, y, key.width, keyHeight)], RowKeysFrom(keys[j + 1..], x + key.width, y, keyHeight));
      ks := ks + [Key(key.name, x, y, key.width, keyHeight)];
      x := x + key.width;
      j := j + 1;
    }
    assert keys[j..] == [];
    assert ks + [] == ks;
    return Ok(ks);
  }

  /** The row number of a row, then its keys; a row name without a number fails. */
  method BuildRow(row: Row, keyHeight: real) returns (r: Result<seq<Key>, LayoutError>)
    ensures r == RowAt(row, keyHeight)
  {
    var rowIndex := RowIndex(row.name);
    if rowIndex.None? {
      return Err(BadRowNumber(row.name));
    }
    r := RowKeys(row.keys, RowY(rowIndex.value, keyHeight), keyHeight);
  }

  /** `_calculate_key_coordinates`: the rows in order, each key appended as it is placed. */
  method CalculateKeyCoordinates(layout: Layout) returns (r: Result<seq<Key>, LayoutError>)
    ensures r == FlatLayout(layout)
  {
    var flat: seq<Key> := [];
    var i := 0;
    assert layout.rows[0..] == layout.rows;
    PrefixedNothing(FlatLayout(layout));
    while i < |layout.rows|
      invariant 0 <= i <= |layout.rows|
      invariant FlatLayout(layout) == Prefixed(flat, FlatLayoutFrom(layout.rows[i..], layout.keyHeight))
    {
      var row := layout.rows[i];
      assert layout.rows[i..][0] == row && layout.rows[i..][1..] == layout.rows[i + 1..];
      var rowKeys := BuildRow(row, layout.keyHeight);
      if rowKeys.Err? {
        return Err(rowKeys.error);
      }
      PrefixedTwice(flat, rowKeys.value, FlatLayoutFrom(layout.rows[i + 1..], layout.keyHeight));
      flat := flat + rowKeys.value;
      i := i + 1;
    }
    assert layout.rows[i..] == [];
    assert flat + [] == flat;
    return Ok(flat);
  }

  // ---------------------------------------------------------------------------------------
  // Lookup
  // ---------------------------------------------------------------------------------------

  /** The position of the first key containing the point, if any. */
  function FirstContaining(flat: seq<Key>, px: real, py: real): (k: Option<nat>)
    ensures k.Some? ==> k.value < |flat| && flat[k.value].Contains(px, py) &&
                        forall j :: 0 <= j < k.value ==> !flat[j].Contains(px, py)
    ensures k.None? ==> forall j :: 0 <= j < |flat| ==> !flat[j].Contains(px, py)
  {
    if flat == [] then None
    else if flat[0].Contains(px, py) then Some(0)
    else
      var rest := FirstContaining(flat[1..], px, py);
      if rest.Some? then Some(rest.value + 1) else None
  }

  /** The name `convert_coordinates_to_key` answers: the first containing key's, or "". */
  function KeyNameAt(flat: seq<Key>, px: real, py: real): (name: string)
    ensures (forall j :: 0 <= j < |flat| ==> !flat[j].Contains(px, py)) ==> name == ""
    ensures name != "" ==> exists k :: 0 <= k < |flat| && flat[k].name == name && flat[k].Contains(px, py)
  {
    var k := FirstContaining(flat, px, py);
    if k.Some? then flat[k.value].name else ""
  }

  /** `convert_coordinates_to_key`: the keys in order, the first that contains the point wins. */
  method ConvertCoordinatesToKey(flat: seq<Key>, px: real, py: real) returns (name: string)
    ensures name == KeyNameAt(flat, px, py)
  {
    var i := 0;
    while i < |flat|
      invariant 0 <= i <= |flat|
      invariant forall j :: 0 <= j < i ==> !flat[j].Contains(px, py)
    {
      if flat[i].Contains(px, py) {
        return flat[i].name;
      }
      i := i + 1;
    }
    return "";
  }

  /** Both intervals of a key are closed, so a point on the edge where a key `flat[i]` ends and
      a later key `flat[j]` begins lies in both; the earlier key wins, unless a key before it
      also contains the point. */
  lemma SharedEdgeGoesLeft(flat: seq<Key>, i: nat, j: nat, py: real)
    requires i < j < |flat| && flat[i].x + flat[i].width == flat[j].x
    requires flat[i].width >= 0.0 && flat[j].width >= 0.0
    requires flat[i].y <= py <= flat[i].y + flat[i].height && flat[j].y <= py <= flat[j].y + flat[j].height
    requires forall k :: 0 <= k < i ==> !flat[k].Contains(flat[j].x, py)
    ensures flat[i].Contains(flat[j].x, py) && flat[j].Contains(flat[j].x, py)
    ensures KeyNameAt(flat, flat[j].x, py) == flat[i].name
  {
  }

  // ---------------------------------------------------------------------------------------
  // Key names
  // ---------------------------------------------------------------------------------------

  /** `KEY_MAPS`: key names that stand for a symbol. */
  const KeyMaps: map<string, string> := map[
    "backtick" := "`", "one" := "1", "two" := "2", "three" := "3", "four" := "4",
    "five" := "5", "six" := "6", "seven" := "7", "eight" := "8", "nine" := "9",
    "zero" := "0", "minus" := "-", "equal" := "=", "backspace" := "\U{8}", "tab" := "\t",
    "left_bracket" := "[", "right_bracket" := "]", "backslash" := "\\", "semicolon" := ";",
    "quote" := "'", "enter" := "\n", "comma" := ",", "period" := ".", "slash" := "/",
    "space" := " "]

  /** `MODIFIER_KEYS`. */
  const ModifierKeys: seq<string> := [
    "left_shift", "right_shift", "left_ctrl", "right_ctrl", "left_alt", "right_alt",
    "left_win", "right_win", "menu", "caps_lock"]

  /** `get_key_value`: the mapped symbol, or the name itself. */
  function GetKeyValue(key: string): (v: string)
    ensures key !in KeyMaps ==> v == key
    ensures key in KeyMaps ==> |v| == 1 && v == KeyMaps[key]
  {
    if key in KeyMaps then KeyMaps[key] else key
  }

  /** `is_modifier_key`. */
  function IsModifierKey(key: string): (b: bool)
    ensures b ==> key !in KeyMaps && |key| > 1
    ensures b <==> exists i :: 0 <= i < |ModifierKeys| && ModifierKeys[i] == key
  {
    key in ModifierKeys
  }

  /** Every mapped name is a word standing for one character, so a one-character name (a
      letter key) is its own value and every value is a single character. */
  lemma KeyValuesAreCharacters(key: string)
    ensures |GetKeyValue(key)| == 1 <== |key| == 1
    ensures |key| == 1 ==> GetKeyValue(key) == key
    ensures key in KeyMaps ==> |GetKeyValue(key)| == 1
  {
  }

  /** No modifier has a symbol: a modifier's value is its own name. */
  lemma ModifiersAreUnmapped(key: string)
    requires IsModifierKey(key)
    ensures GetKeyValue(key) == key && |key| > 1
  {
  }

  lemma GetKeyValueExamples()
    ensures GetKeyValue("space") == " " && GetKeyValue("a") == "a"
    ensures IsModifierKey("left_shift") && !IsModifierKey("a")
  {
  }
}

=== FILE: types.dfy ===
/** Values shared by the whole keystroke pipeline: frame states, the ten finger
    identities, detection boxes and tracked points with a bounded history. */
module Types {

  datatype Option<+T> = None | Some(value: T)

  datatype Result<+T, +E> = Ok(value: T) | Err(error: E)

  /** One detection box in pixels, in the detector's xywh order: centre, width, height. */
  datatype Box = Box(cx: real, cy: real, w: real, h: real)

  /** Detection completeness of a processed frame. */
  datatype FrameState = Initializing | Valid | MissingMarkers | MissingFingers | MissingThumbs

  const FingerCount: nat := 10

  /** The ten finger identities, in the order of their ordinal index. */
  datatype Finger =
    | LeftPinky | LeftRing | LeftMiddle | LeftIndex | LeftThumb
    | RightThumb | RightIndex | RightMiddle | RightRing | RightPinky
  {
    function Index(): (i: nat)
      ensures i < FingerCount
    {
      match this
      case LeftPinky => 0
      case LeftRing => 1
      case LeftMiddle => 2
      case LeftIndex => 3
      case LeftThumb => 4
      case RightThumb => 5
      case RightIndex => 6
      case RightMiddle => 7
      case RightRing => 8
      case RightPinky => 9
    }

    function Name(): string
    {
      match this
      case LeftPinky => "left_pinky"
      case LeftRing => "left_ring"
      case LeftMiddle => "left_middle"
      case LeftIndex => "left_index"
      case LeftThumb => "left_thumb"
      case RightThumb => "right_thumb"
      case RightIndex => "right_index"
      case RightMiddle => "right_middle"
      case RightRing => "right_ring"
      case RightPinky => "right_pinky"
    }

    predicate IsThumb()
    {
      this == LeftThumb || this == RightThumb
    }
  }

  /** `Fingers.values()`: every identity exactly once, listed by index. */
  function Values(): (fs: seq<Finger>)
    ensures |fs| == FingerCount
    ensures forall i :: 0 <= i < |fs| ==> fs[i].Index() == i
    ensures forall f: Finger :: fs[f.Index()] == f
  {
    [LeftPinky, LeftRing, LeftMiddle, LeftIndex, LeftThumb,
     RightThumb, RightIndex, RightMiddle, RightRing, RightPinky]
  }

  /** The first finger of `fs` whose index is `i`, the generator behind `Fingers.by_index`. */
  function FirstWithIndex(fs: seq<Finger>, i: int): (r: Option<Finger>)
    ensures r.Some? ==> r.value in fs && r.value.Index() == i
    ensures r.None? ==> forall f :: f in fs ==> f.Index() != i
  {
    if fs == [] then None
    else if fs[0].Index() == i then Some(fs[0])
    else FirstWithIndex(fs[1..], i)
  }

  /** `Fingers.by_index`: the identity with ordinal `i`, or None outside 0..9. */
  function ByIndex(i: int): (r: Option<Finger>)
    ensures r.Some? <==> 0 <= i < FingerCount
    ensures r.Some? ==> r.value.Index() == i && r.value == Values()[i]
  {
    var fs := Values();
    assert 0 <= i < FingerCount ==> fs[i] in fs;
    FirstWithIndex(fs, i)
  }

  /** Python's `int(r)` on a float: truncation toward zero. */
  function Trunc(r: real): (n: int)
    ensures 0.0 <= r ==> n as real <= r < n as real + 1.0
    ensures r < 0.0 ==> n as real - 1.0 < r <= n as real
  {
    if r >= 0.0 then r.Floor else -((-r).Floor)
  }

  lemma TruncOfInt(n: int)
    ensures Trunc(n as real) == n
  {
  }

  /** Number of samples a tracked point keeps (`_window_length`). */
  const WindowLength: nat := 10

  function Min(a: int, b: int): int
  {
    if a <= b then a else b
  }

  /** `h + [v]`, keeping only the last `WindowLength` entries. */
  function Window(h: seq<int>, v: int): (r: seq<int>)
    ensures |r| == Min(|h| + 1, WindowLength)
    ensures r[|r| - 1] == v
    ensures forall k :: 0 <= k < |r| - 1 ==> r[k] == h[|h| + 1 - |r| + k]
  {
    var a := h + [v];
    if |a| <= WindowLength then a else a[|a| - WindowLength..]
  }

  /** The abstract value of a tracked point: its x and y sample histories, oldest first. */
  datatype PointValue = PointValue(xHistory: seq<int>, yHistory: seq<int>)
  {
    /** Both histories hold between 1 and `WindowLength` samples, equally many. */
    predicate Valid()
    {
      1 <= |xHistory| == |yHistory| <= WindowLength
    }

    /** The current x coordinate: the newest x sample (a valid point is never empty; the
        value 0 only makes the function total). */
    function X(): (x: int)
      ensures Valid() ==> x == xHistory[|xHistory| - 1]
      ensures !Valid() && xHistory == [] ==> x == 0
    {
      if xHistory == [] then 0 else xHistory[|xHistory| - 1]
    }

    /** The current y coordinate: the newest y sample. */
    function Y(): (y: int)
      ensures Valid() ==> y == yHistory[|yHistory| - 1]
      ensures !Valid() && yHistory == [] ==> y == 0
    {
      if yHistory == [] then 0 else yHistory[|yHistory| - 1]
    }

    /** `Point.update(x, y)`: both histories gain the truncated sample and keep their last ten. */
    function Updated(x: real, y: real): (p: PointValue)
      requires Valid()
      ensures p.Valid() && p.X() == Trunc(x) && p.Y() == Trunc(y)
      ensures |xHistory| < WindowLength ==>
                p.xHistory == xHistory + [Trunc(x)] && p.yHistory == yHistory + [Trunc(y)]
      ensures |xHistory| == WindowLength ==>
                p.xHistory == xHistory[1..] + [Trunc(x)] && p.yHistory == yHistory[1..] + [Trunc(y)]
    {
      PointValue(Window(xHistory, Trunc(x)), Window(yHistory, Trunc(y)))
    }

    /** `velocity_y(window)`: the newest y minus the y at position `-window` (window - 1 samples
        before the newest), divided by `window`; 0 while fewer than `window` samples are held. */
    function VelocityY(window: int): (v: real)
      requires window >= 1
      ensures |yHistory| < window ==> v == 0.0
      ensures |yHistory| >= window ==>
                v * window as real == (Y() - yHistory[|yHistory| - window]) as real
    {
      if |yHistory| < window then 0.0
      else (yHistory[|yHistory| - 1] - yHistory[|yHistory| - window]) as real / window as real
    }

    /** `Point.__eq__`: only the current coordinates are compared, never the history. */
    function Equals(other: PointValue): (b: bool)
      requires Valid() && other.Valid()
      ensures this == other ==> b
      ensures b ==> other.X() == X() && other.Y() == Y()
    {
      X() == other.X() && Y() == other.Y()
    }
  }

  /** `Point(x, y)`: a fresh point with one truncated sample. */
  function NewPoint(x: real, y: real): (p: PointValue)
    ensures p.Valid() && |p.xHistory| == 1
    ensures p.X() == Trunc(x) && p.Y() == Trunc(y)
  {
    PointValue([Trunc(x)], [Trunc(y)])
  }

  /** `p.pupdate(q)` equals `p.update(x, y)` when `q` was made from `x` and `y`:
      truncating an already truncated coordinate changes nothing. */
  lemma PUpdateIsUpdate(p: PointValue, x: real, y: real)
    requires p.Valid()
    ensures p.Updated(NewPoint(x, y).X() as real, NewPoint(x, y).Y() as real) == p.Updated(x, y)
  {
    TruncOfInt(Trunc(x));
    TruncOfInt(Trunc(y));
  }

  /** Updating keeps the histories valid whatever sequence of samples arrives. */
  lemma {:induction false} UpdatesKeepHistoryBounded(p: PointValue, xs: seq<real>, ys: seq<real>)
    requires p.Valid() && |xs| == |ys|
    ensures UpdatedAll(p, xs, ys).Valid()
    ensures |UpdatedAll(p, xs, ys).yHistory| == Min(|p.yHistory| + |xs|, WindowLength)
    decreases |xs|
  {
    if xs != [] {
      UpdatesKeepHistoryBounded(p.Updated(xs[0], ys[0]), xs[1..], ys[1..]);
    }
  }

  /** A point after a sequence of `update` calls. */
  function UpdatedAll(p: PointValue, xs: seq<real>, ys: seq<real>): PointValue
    requires p.Valid() && |xs| == |ys|
    decreases |xs|
  {
    if xs == [] then p else UpdatedAll(p.Updated(xs[0], ys[0]), xs[1..], ys[1..])
  }

  /** The velocity example of the unit tests: y samples 2, 4, 6, 8 give (8 - 4) / 3 over a window of 3. */
  lemma VelocityExample()
    ensures NewPoint(1.0, 2.0).Updated(1.0, 4.0).Updated(1.0, 6.0).Updated(1.0, 8.0).VelocityY(3)
            == (8.0 - 4.0) / 3.0
  {
    var p := NewPoint(1.0, 2.0).Updated(1.0, 4.0).Updated(1.0, 6.0).Updated(1.0, 8.0);
    assert p.yHistory == [2, 4, 6, 8];
  }

  /** The change of y between sample `k` and sample `k + 1`. */
  function Step(ys: seq<int>, k: nat): int
    requires k + 1 < |ys|
  {
    ys[k + 1] - ys[k]
  }

  /** A point moving by the same `d` every sample reports velocity `d * (w - 1) / w`. */
  lemma {:induction false} UniformMotionVelocity(p: PointValue, d: int, w: int)
    requires p.Valid() && 1 <= w <= |p.yHistory|
    requires forall k: nat :: k + 1 < |p.yHistory| ==> Step(p.yHistory, k) == d
    ensures p.VelocityY(w) * w as real == (d * (w - 1)) as real
  {
    var ys := p.yHistory;
    var n := |ys|;
    var j := 1;
    while j < w
      invariant 1 <= j <= w
      invariant ys[n - 1] - ys[n - j] == d * (j - 1)
    {
      assert Step(ys, n - j - 1) == d;
      assert d * (j - 1) + d == d * j;
      j := j + 1;
    }
  }

  /** Equality of points ignores history: any point moved to (x, y) equals a fresh point
      at (x, y), although their histories differ. */
  lemma EqualityIgnoresHistory(p: PointValue, x: real, y: real)
    requires p.Valid()
    ensures p.Updated(x, y).Equals(NewPoint(x, y)) && NewPoint(x, y).Equals(p.Updated(x, y))
    ensures p.Updated(x, y).xHistory != NewPoint(x, y).xHistory
  {
  }

  /** A tracked 2D point whose sample histories are updated in place (`types.Point`). */
  class Point {
    var xHistory: seq<int>
    var yHistory: seq<int>

    function Value(): PointValue
      reads this
    {
      PointValue(xHistory, yHistory)
    }

    ghost predicate Valid()
      reads this
    {
      Value().Valid()
    }

    constructor (x: real, y: real)
      ensures Valid() && Value() == NewPoint(x, y)
    {
      xHistory := [Trunc(x)];
      yHistory := [Trunc(y)];
    }

    /** Appends the sample to both histories, trims them to the window and returns this point. */
    method Update(x: real, y: real) returns (self: Point)
      requires Valid()
      modifies this
      ensures Valid() && self == this
      ensures Value() == old(Value()).Updated(x, y)
    {
      xHistory := xHistory + [Trunc(x)];
      yHistory := yHistory + [Trunc(y)];
      if |xHistory| > WindowLength {
        xHistory := xHistory[|xHistory| - WindowLength..];
      }
      if |yHistory| > WindowLength {
        yHistory := yHistory[|yHistory| - WindowLength..];
      }
      self := this;
    }

    /** Updates this point with the current coordinates of `p`. */
    method PUpdate(p: Point) returns (self: Point)
      requires Valid() && p.Valid()
      modifies this
      ensures Valid() && self == this
      ensures Value() == old(Value()).Updated(old(p.Value().X()) as real, old(p.Value().Y()) as real)
    {
      var x, y := p.Value().X(), p.Value().Y();
      self := Update(x as real, y as real);
    }

    /** The `x` setter: overwrites the newest x sample only. */
    method SetX(value: real)
      requires Valid()
      modifies this
      ensures Valid() && Value().X() == Trunc(value)
      ensures |xHistory| == |old(xHistory)| && xHistory[..|xHistory| - 1] == old(xHistory)[..|xHistory| - 1]
      ensures yHistory == old(yHistory)
    {
      xHistory := xHistory[|xHistory| - 1 := Trunc(value)];
    }

    /** The `y` setter: overwrites the newest y sample only. */
    method SetY(value: real)
      requires Valid()
      modifies this
      ensures Valid() && Value().Y() == Trunc(value)
      ensures |yHistory| == |old(yHistory)| && yHistory[..|yHistory| - 1] == old(yHistory)[..|yHistory| - 1]
      ensures xHistory == old(xHistory)
    {
      yHistory := yHistory[|yHistory| - 1 := Trunc(value)];
    }
  }
}

=== FILE: ui.dfy ===
/** The user interface's task scheduler: a list of (time, task) entries, appended to in order,
    optionally only when the task is not already scheduled. Tasks are opaque handles compared
    by identity; the clock is a parameter. */
module Ui {

  /** A task, as the handle of the callable it stands for. */
  type Task = nat

  /** An entry of the task list: when the task is due, and the task. */
  datatype Entry = Entry(at: real, task: Task)

  /** `task in (t for _, t in tasks)`. */
  function Holds(tasks: seq<Entry>, task: Task): (b: bool)
    ensures b <==> exists i :: 0 <= i < |tasks| && tasks[i].task == task
  {
    if tasks == [] then false
    else tasks[|tasks| - 1].task == task || Holds(tasks[..|tasks| - 1], task)
  }

  /** The task list after `add_task_at(at, task, unique)`: unchanged when `unique` is set and the
      task is already listed, otherwise the entry is appended at the end. */
  function Scheduled(tasks: seq<Entry>, at: real, task: Task, unique: bool): (r: seq<Entry>)
    ensures Holds(r, task)
    ensures unique && Holds(tasks, task) ==> r == tasks
    ensures !unique ==> |r| == |tasks| + 1
    ensures tasks <= r && |r| <= |tasks| + 1
    ensures |r| == |tasks| + 1 ==> r[|tasks|] == Entry(at, task)
  {
    if unique && Holds(tasks, task) then tasks else tasks + [Entry(at, task)]
  }

  /** No task is listed twice. */
  predicate Distinct(tasks: seq<Entry>)
  {
    forall i, j :: 0 <= i < j < |tasks| ==> tasks[i].task != tasks[j].task
  }

  /** A list filled only by unique additions never lists a task twice. */
  lemma UniqueAddKeepsDistinct(tasks: seq<Entry>, at: real, task: Task)
    requires Distinct(tasks)
    ensures Distinct(Scheduled(tasks, at, task, true))
  {
    var r := Scheduled(tasks, at, task, true);
    if !Holds(tasks, task) {
      forall i, j | 0 <= i < j < |r| ensures r[i].task != r[j].task {
        if j == |tasks| {
          assert r[i] == tasks[i];
        }
      }
    }
  }

  /** A unique addition of a task already added uniquely changes nothing, whatever its time. */
  lemma UniqueAddIsIdempotent(tasks: seq<Entry>, at: real, at': real, task: Task)
    ensures Scheduled(Scheduled(tasks, at, task, true), at', task, true) == Scheduled(tasks, at, task, true)
  {
  }

  /** Adding one task does not remove any other: every listed task stays listed. */
  lemma AddingKeepsOthers(tasks: seq<Entry>, at: real, task: Task, unique: bool, other: Task)
    requires Holds(tasks, other)
    ensures Holds(Scheduled(tasks, at, task, unique), other)
  {
    var r := Scheduled(tasks, at, task, unique);
    var i :| 0 <= i < |tasks| && tasks[i].task == other;
    assert r[i] == tasks[i];
  }

  /** `TaskScheduler`: the task list. */
  class TaskScheduler {
    var tasks: seq<Entry>

    constructor ()
      ensures tasks == []
    {
      tasks := [];
    }

    /** `task_exists`. */
    function TaskExists(task: Task): (b: bool)
      reads this
      ensures b <==> exists i :: 0 <= i < |tasks| && tasks[i].task == task
    {
      Holds(tasks, task)
    }

    /** `add_task_at`. */
    method AddTaskAt(at: real, task: Task, unique: bool)
      modifies this
      ensures tasks == Scheduled(old(tasks), at, task, unique)
      ensures TaskExists(task)
    {
      if unique && TaskExists(task) {
        return;
      }
      tasks := tasks + [Entry(at, task)];
    }

    /** `add_task_in`: due `delay` seconds after `now`. */
    method AddTaskIn(delay: real, task: Task, unique: bool, now: real)
      modifies this
      ensures tasks == Scheduled(old(tasks), now + delay, task, unique)
      ensures TaskExists(task)
    {
      AddTaskAt(now + delay, task, unique);
    }
  }
}
